=== FILE: README.md ===
# Show: a visibility and dwell tracker, modelled in Dafny

`Show` (show.js) watches a set of page elements with an IntersectionObserver
and reports two kinds of impression to callers' handlers:

- **Exposure.** Every element that became at least about two thirds visible
  since the last flush. It is sent with `stop` through `init` on the first
  observer batch and on every `reload()`, and whenever scrolling settles for
  500 ms.
- **Stay.** Each `stop` starts a 3000 ms timer. When it elapses, `stay`
  receives the stay candidates: the elements whose visible span of more than
  3000 ms ended since the candidates were last cleared, followed by every
  visible element that carries no `leftTime` stamp, however long it has been
  on screen (`Show.MergeVisibleCovers`, `ShowFacts.StayTimerFlush`). Then
  `stop-stay` receives the visible elements. The first scroll event of a burst
  (`begin`) cancels only the timer that `stayTimer` refers to; an earlier,
  orphaned timer still fires. When scrolling settles, `stop-stay` receives the
  stay candidates and empties them (`ShowFacts.DebouncedStop`). So a long span
  that ends during a scroll burst is normally reported by `stop-stay`; only an
  orphaned timer, or one armed by `reload` or `init` during the burst, can
  send it with `stay`.

The tracker keeps three arrays:
- `domsShow`: exposure, without duplicates.
- `domsStay`: stay candidates.
- `domsVisiable`: elements currently visible.

It stamps `accessTime`/`leftTime` onto elements and dispatches named events
through a small event bus (`on`, `fireEvent`). The tracker registers its own
handlers on that bus:
- `stop` arms the stay timer.
- `init` fires `stop` with the exposure list.
- `stop`, `stay` and `stop-stay` each empty the array they were given.

The model is a pure state machine. `Show.Tracker` holds:
- the three arrays;
- the two timestamp maps;
- the flags `isInit` and `begin`;
- the debounce and stay-timer state;
- the handler registry;
- a log of every call made to a caller's handler, recording what its first
  argument held at that moment.

Each host callback is an `Show.Input`, and `Show.Step` applies one. The
inputs are:
- an observer batch;
- a scroll event;
- the debounce deadline;
- a stay timer elapsing;
- `reload()`, `on(...)` and `fireEvent(...)` called by a caller.

An operation that throws returns `threw = true` together with every effect
made before the throw.

Modules:
- `Base`: options, element identities, positive timestamps, and sequence
  helpers.
- `Classify`: `enterOrExit`, which compares the intersection ratio with
  0.6666666.
- `Actions`: the per-entry `show`, `stay` and `visible` actions, including the
  splice loop, both as a recursive function and as a loop.
- `Registry`: `on`, with its name test and array recursion.
- `Show`: the tracker, dispatch, the inputs, and the constructor.
- `DispatchFacts`: the exact effect of firing each event in a tracker wired by
  the constructor.
- `ShowFacts`: the exact outcome of each input, the invariant every input
  keeps, and the absence of throws from the tracker's own callbacks.

The model follows the code where the code does something that its header
comment (show.js:1-40) does not say:

- **Stay without a long span.** The header promises `stay` only for a single
  span over 3 s (show.js:14-15). The timer's merge (show.js:149-155) also
  adds every visible element without `leftTime`, even one that entered just
  before the timer elapsed (`Show.MergeVisibleCovers`).
- **Visible list.** An enter appends to the visible list with no duplicate
  check. The exit loop calls `splice(i, 1)` and still increments `i`, so of
  two adjacent copies only the first is removed
  (`Actions.SpliceOutSkipsAdjacent`). When the element is listed at most
  once, exit removes exactly that copy (`Actions.SpliceOutSingle`).
- **Handler order.** The tracker's own handlers are registered after the
  construction-time listeners, so those listeners see the full arrays. A
  handler added later with `on` runs after the clearing handler and sees an
  empty array (`ShowFacts.LateStopListener`).
- **`stop-stay` clears the visible list.** The second `stop-stay` receives
  `domsVisiable`, and the clearing handler empties it. `getVisibleDoms` is
  therefore empty after each stay timer, even while elements stay on screen
  (`ShowFacts.StayTimerFlush`).
- **`stop-stay` waves overlap.** The header says the timer's `stop-stay`
  wave leaves out what the first wave sent (show.js:39). The code does not:
  the debounced stop sends the stay candidates (show.js:185), and the timer
  then sends the whole visible list (show.js:162). An element that is both a
  candidate and visible when scrolling settles goes out in both waves
  (`ShowFacts.StopStayWavesOverlap`).
- **Orphaned stay timers.** `stayTimer` keeps only the last timer. A second
  `stop` before the first timer elapses leaves a timer that `begin` cannot
  cancel, modelled as `orphanTimers`.
- **Inherited names.** The registry is a plain object, so a name inherited
  from `Object.prototype` passes the name test but is already "present".
  `on` with a function and `fireEvent` under such a name throw a TypeError;
  `on` with anything else registers nothing and does not throw
  (`Registry.Inherited`, `Registry.OnName`).
- **Firing a clearing name without an array.** The clearing handler runs
  `doms.length = 0`, which throws when `fireEvent('stop')`, `'stay'` or
  `'stop-stay'` is given no argument or `null`. The handlers registered
  before it have run by then; the later ones are skipped
  (`DispatchFacts.FireClearThrows`).

The visibility test agrees with the header (show.js:7): an element counts as
visible when `ratio > 0.6666666`. The literal lies just below 2/3, so an
element exactly two thirds visible enters (`Classify.TwoThirdsEnters`).

## Model

| member | source | states |
|---|---|---|
| Classify.EnterOrExit | show.js:200-206 | an entry is an enter exactly when its ratio exceeds 0.6666666, and an exit exactly when it does not |
| Classify.TwoThirdsEnters | show.js:201 | a ratio of exactly 2/3 enters, the threshold itself exits, 0 exits and 1 enters |
| Actions.ShowAction | show.js:90-101 | on enter the exposure list's elements become the old ones plus the entering element, appended only if absent; exit changes nothing; the list never loses anything and stays duplicate-free |
| Actions.StayAction | show.js:66-89 | enter stamps `accessTime` and clears `leftTime`; an exit without `accessTime`, or with `leftTime` set, is a no-op; a measuring exit appends the element exactly when the span exceeded 3000 ms and leaves it with neither stamp |
| Actions.StayAppendsOnlyLongSpans | show.js:72-87 | the stay list only grows, and only by the entry's own element after a measuring exit of a span longer than 3000 ms |
| Actions.VisibleAction | show.js:102-117 | enter appends the element unconditionally; exit of a listed element removes at least one copy of it, keeps every other element in order and never lengthens the list; exit of an unlisted element changes nothing |
| Actions.SpliceOut | show.js:110-114 | the splice loop never lengthens the visible list (what it keeps and removes is stated by the lemmas below) |
| Actions.SpliceOutKeepsOthers | show.js:110-114 | the splice loop keeps every other element in its order and removes at least one copy of the leaving element when there is one |
| Actions.SpliceLoop | show.js:110-114 | the index-and-splice loop computes the same list as the recursive description |
| Actions.SpliceOutAbsent | show.js:110-114 | an exit of an element that is not listed leaves the visible list unchanged |
| Actions.SpliceOutSingle | show.js:110-114 | an element listed once is removed at its position and nothing else moves |
| Actions.SpliceOutSkipsAdjacent | show.js:110-114 | of two adjacent copies only the first is removed, so a departed element can remain listed |
| Actions.EnterThenExit | show.js:104-114 | an element not listed before that enters and then exits leaves the visible list as it was |
| Registry.OnName | show.js:236-244 | an invalid name or non-function registers nothing; an inherited name throws; otherwise the handler is appended to that name's list, created if missing, and no other name changes |
| Registry.OnIgnoresNonFunction | show.js:229-246 | a non-function registers nothing under any single name or nested array of names |
| Registry.OnNamesCons | show.js:231-234 | an array of names registers under its first name and then, unless that threw, under the rest |
| Registry.OnEachSnoc | show.js:229-246 | registering under an array is registering under each item in turn, and a throw skips the remaining items; this covers repeated names, unacceptable names and nested arrays alike |
| Registry.OnNamesSnoc | show.js:231-234 | the same for an array of plain names: the last name is registered on top of the result for the others, unless they threw |
| Registry.OnRepeatedName | show.js:231-243 | a name listed twice gets the function appended twice |
| Registry.OnEveryName | show.js:231-234 | an array of distinct acceptable names appends the handler to each of their lists and leaves the other names unchanged |
| Show.Emptied | show.js:177-179 | `doms.length = 0` empties the given array and no other |
| Show.ArmTimer | show.js:146-147 | starting the stay timer leaves the handle pending and adds one pending timer; an earlier timer stays pending |
| Show.Fire | show.js:247-261 | firing changes only the arrays (each kept or emptied), the timer (only armed) and the log (only extended); an inherited name throws before any handler runs; an unregistered name does nothing |
| Show.RunHandlers | show.js:258-260 | running a name's handlers keeps the dispatch frame |
| Show.RunHandler | show.js:259 | one handler keeps the dispatch frame |
| Show.FireEvent | show.js:250-252 | an undefined name returns at once with nothing changed |
| Show.Listen | show.js:229-246 | `on` changes nothing but the registry |
| Show.ApplyEntry | show.js:123-126 | one entry leaves the registry, log, flags and timers unchanged and keeps the exposure list duplicate-free |
| Show.ApplyEntries | show.js:122-128 | a batch's entries leave the registry, log, flags and timers unchanged and keep the exposure list duplicate-free |
| Show.StampLeft | show.js:157-159 | every candidate is stamped with `leftTime = now` and every other stamp is kept |
| Show.Wire | show.js:167-179 | each of `stop`, `init`, `stay` and `stop-stay` gets its built-in block (`Show.Core`: arm timer then clear, flush, clear, clear) after the handlers it already had; no other name changes and no name is dropped |
| Show.ObserverBatch | show.js:122-134 | a batch never changes the registry and only extends the log; unless it throws, the tracker is initialised afterwards; once initialised, a batch runs no handler and does not throw |
| Show.MergeVisible | show.js:149-155 | the candidates stay as a prefix; every element added after them is visible, has no `leftTime` and was not a candidate |
| Show.MergeVisibleCovers | show.js:149-155 | every visible element without `leftTime` is a candidate after the merge |
| Show.StayTimerFires | show.js:147-164 | every old candidate and every unstamped visible element ends stamped with `leftTime = now`; no stamp is removed; `accessTime`, the registry and the flags are unchanged; the log only grows |
| Show.StayTimerElapsed | show.js:143-164 | a timer that is not pending changes nothing; any elapse leaves the registry, `accessTime` and the flags alone |
| Show.Scroll | show.js:190-198 | after a scroll that does not throw, a burst is in progress and the debounced stop is scheduled; the first scroll leaves the handle referring to no timer; a scroll within a burst runs no handler and changes no timer; stamps and registry are unchanged |
| Show.DebounceElapsed | show.js:183-187 | nothing happens unless the debounced stop is scheduled; once it runs it is no longer scheduled, and unless a handler throws the burst ends; stamps and registry are unchanged |
| Show.Reload | show.js:213-224 | `reload` ends with an empty visible list; the registry, `isInit` and both stamp maps are unchanged and the log only grows |
| Show.GetVisibleDoms | show.js:225-227 | returns a handle on the tracker's visible array, not a copy: read in any later state it yields that state's visible list |
| Show.Create | show.js:42-62 | a new tracker starts with empty arrays, no stamps, no handler calls, clear flags and no pending timer; when construction completes, every built-in name is registered |
| DispatchFacts.CallsOfHas | show.js:258-260 | every caller's handler in a list that runs to the end is logged with the argument the dispatch was given |
| DispatchFacts.RunUsers | show.js:258-260 | callers' handlers run in registration order, each logged once with the same argument, and nothing throws |
| DispatchFacts.RunAppend | show.js:258-260 | a throwing handler stops the remaining handlers of the same dispatch |
| DispatchFacts.FlushRun | show.js:176-179 | around a clearing block, earlier handlers see the array's contents, later ones see it empty, and the array ends empty |
| DispatchFacts.FireFlush | show.js:177-179 | `stop`, `stay` and `stop-stay` in a wired registry: exactly the handlers before the built-in block see the array, the array is emptied and `stop` arms the timer |
| DispatchFacts.CoreThrows | show.js:177-179 | the built-in block given `undefined` or `null` arms the stay timer if it holds that handler, then throws at `doms.length = 0` |
| DispatchFacts.ThrowRun | show.js:258-260 | around a clearing block run without an array, the earlier caller handlers run, the block throws, and the later handlers never run |
| DispatchFacts.FireClearThrows | show.js:177-179 | `stop`, `stay` or `stop-stay` fired with no argument or `null` in a wired registry: exactly the handlers before the built-in block run, then it throws; `stop` has armed the stay timer and no array is emptied |
| DispatchFacts.FireUsers | show.js:254-260 | a name without built-in handlers, such as `begin`, only runs callers' handlers in order |
| DispatchFacts.FireInit | show.js:172-174 | `init` runs its earlier handlers, then the full `stop` flush of the exposure list, then its later handlers |
| ShowFacts.OnExtends | show.js:229-246 | any `on` call from a caller only appends callers' handlers to lists |
| ShowFacts.ShapedExtend | show.js:240-243 | appending to a wired list keeps the handlers before the built-in block and puts new ones after it |
| ShowFacts.WiredExtends | show.js:237-243 | a wired registry stays wired when callers' handlers are appended |
| ShowFacts.LateStopListener | show.js:177-179 | a handler added later with `on('stop')` runs after the clearing handler; construction-time handlers keep their place before it |
| ShowFacts.OnListenersFacts | show.js:58-62 | construction-time listeners register only callers' handlers, and throw exactly when a function is given under an inherited name |
| ShowFacts.CoreBlock | show.js:167-179 | every built-in block starts with one of the tracker's own handlers, never a caller's |
| ShowFacts.WireBlock | show.js:167-179 | after wiring, a built-in name's list is its callers' handlers followed by its built-in block, with nothing after it |
| ShowFacts.WireWired | show.js:167-179 | the built-in registrations on top of callers' handlers give the wired shape, with nothing after any built-in block |
| ShowFacts.CreateWired | show.js:53-62 | the constructor throws exactly for an inherited listener name; otherwise it yields a wired tracker with empty arrays, clear flags, no pending timer and an empty log |
| ShowFacts.MergeVisibleAdds | show.js:149-155 | the merge keeps the stay candidates in order, then adds exactly the visible elements that are neither candidates nor stamped with `leftTime`, each once, in the order of their first occurrence in the visible list; distinct candidates stay distinct |
| ShowFacts.MergeVisibleMembers | show.js:149-155 | the added elements are exactly the visible ones that were neither candidates nor stamped |
| ShowFacts.MergeVisibleKeepsNoDup | show.js:149-155 | candidates that were distinct stay distinct after the merge |
| ShowFacts.MergeVisibleInOrder | show.js:149-155 | any two added positions hold distinct visible elements, the earlier one occurring first in the visible list |
| ShowFacts.MergeVisibleOrder | show.js:149-155 | of two added positions, the earlier holds the element whose first occurrence in the visible list comes first |
| ShowFacts.BatchExposure | show.js:123-127 | over a batch, the exposure list keeps its contents in order and gains exactly the entering elements, each once |
| ShowFacts.FirstBatch | show.js:122-133 | the first batch applies every entry, then fires `init` once, flushing the whole batch's exposure through `stop`, arming the stay timer and marking the tracker initialised |
| ShowFacts.LaterBatch | show.js:129-133 | once initialised, a batch runs no handler and touches no flag or timer |
| ShowFacts.InitStays | show.js:130-133 | `isInit` never goes back to false |
| ShowFacts.VisibleDomsFollowEntry | show.js:102-117 | the visible list gains an entering element at the end, runs the splice loop on an exit, and an exit leaves exposure alone |
| ShowFacts.VisibleDomsAlias | show.js:225-227 | firing `stop`, `stay` or `stop-stay` with the array `getVisibleDoms` returned hands the current visible elements to the handlers before the built-in block, and afterwards the tracker's visible list is empty |
| ShowFacts.ReloadFiresInit | show.js:213-224 | `reload` empties the visible list and fires `init` whether or not it fired before |
| ShowFacts.ScrollBegins | show.js:190-198 | the first scroll of a burst fires `begin` to its handlers, raises the flag, cancels the referenced stay timer and schedules the debounced stop; nothing else changes |
| ShowFacts.ScrollContinues | show.js:191-197 | later scrolls of a burst only reschedule the debounced stop |
| ShowFacts.BeginCancelsStayTimer | show.js:194 | after `begin`, the stay timer the handle referred to can no longer fire |
| ShowFacts.DebouncedStop | show.js:183-187 | the debounced stop flushes exposure through `stop`, arming the stay timer, then the stay candidates through `stop-stay`, and ends the burst |
| ShowFacts.StayTimerFlush | show.js:147-164 | the stay timer sends the merged candidates with `stay` and the visible list with `stop-stay`, ends with both arrays empty and stamps every merged candidate |
| ShowFacts.DebouncedLog | show.js:183-187 | the debounced stop appends the `stop` calls with the exposure list, then the `stop-stay` calls with the stay candidates, leaves the visible list alone and arms the timer |
| ShowFacts.StayTimerLog | show.js:147-164 | the armed stay timer appends the `stay` calls with the merged candidates, then the `stop-stay` calls with the visible list |
| ShowFacts.FirstWave | show.js:183-187 | when scrolling settles, a handler registered before the built-in `stop-stay` handler receives the stay candidates, and the visible list is kept |
| ShowFacts.SecondWave | show.js:147-164 | when the armed timer elapses, that handler receives the whole visible list, with nothing left out for having been sent before |
| ShowFacts.StopStayWavesOverlap | show.js:161-185 | the debounced `stop-stay` and the following timer's `stop-stay` are not disjoint: the first receives the candidates, the second the unchanged visible list |
| ShowFacts.StampedExitAddsNothing | show.js:75-77 | a candidate stamped by the timer is not counted again by a later exit unless it enters first |
| ShowFacts.StepKeepsInv | show.js:167-179 | every input, including a throwing `on` or `fireEvent`, keeps the registry wired and the exposure list duplicate-free |
| ShowFacts.InternalNeverThrows | show.js:122-198 | in a wired tracker the observer, scroll, debounce, stay-timer and reload callbacks never throw |

## Left out

- The IntersectionObserver and its options, `observe`/`unobserve`, and the
  polyfill are not modelled. Batches arrive as `Batch` inputs of
  `(element, ratio)` entries.
- `document.querySelectorAll`, the selector and `opt.container` are not
  modelled. Elements are opaque identities; `reload` re-observing elements
  only affects which batches the host delivers later.
- `setTimeout`, `clearTimeout`, `debounce(fn, 500)` and
  `addEventListener('scroll')` become inputs. Which pending timer elapses,
  and when, is the host's choice.
- The ratio is an exact real, not a double. The literal 0.6666666 is compared
  exactly.
- All entries of a batch share one `now`. The source reads `Date.now()`
  separately for each stamp.
- Callers' handlers are opaque: their bodies, `this` binding and return
  values are not modelled. They are taken not to throw and not to call back
  into the tracker; a call is logged with a snapshot of its first argument.
  Arguments after the first are not modelled.
- `for (k in opt.listeners)` enumeration order is taken as the order of the
  given listener list.
- Non-string event names are not modelled: `on` receives a name or an array
  (`isArray`), and `fireEvent` receives a name or undefined.
- Timestamps live on the elements themselves (show.js:69, 78, 85-86, 158).
  Several trackers watching the same element therefore read, overwrite and
  delete each other's `accessTime` and `leftTime`, although the header
  (show.js:2) advertises several instances. The model has a single tracker
  that owns its stamp maps, so this interference between instances is not
  modelled.
- A caller's own value passed to `fireEvent` (`Foreign`) is taken to accept
  `length = 0` without throwing, as an array or plain object does.
- Show.Fire: nested dispatch is bounded by `StackDepth`, and exhausting it
  counts as a throw (stack overflow). In a tracker built by `Create`, only
  `init` nests `stop` inside itself, so the bound is never reached.

=== FILE: actions.dfy ===
/** The three per-entry actions of show.js:65-118. Each observer entry runs
    them in the order show, stay, visible; each touches its own list. */
module Actions {

  import opened Base
  import opened Classify

  /** A completed visible span longer than this (strictly) is a stay. */
  const DwellThreshold: int := 3000

  /* ---------------- exposure list `domsShow` (show.js:90-101) ---------------- */

  /** Enter appends the element unless it is already present; exit has no
      handler, so it changes nothing. */
  function ShowAction(shown: seq<Elem>, d: Elem, tr: Transition): (r: seq<Elem>)
    ensures tr == Exit ==> r == shown
    ensures tr == Enter ==> Elems(r) == Elems(shown) + {d}
    ensures shown <= r && |r| <= |shown| + 1
    ensures NoDup(shown) ==> NoDup(r)
  {
    if tr == Enter && d !in shown then shown + [d] else shown
  }

  /* ------------- dwell accumulator `domsStay` (show.js:66-89) ------------- */

  /** The stay list together with the `accessTime` and `leftTime` stamps the
      source writes onto each element; a missing key is a deleted property. */
  datatype StayState = StayState(stayed: seq<Elem>, access: map<Elem, Time>, left: map<Elem, Time>)

  /** Did a span that began at `since` and ends at `now` last long enough? */
  predicate LongDwell(since: Time, now: Time)
  {
    now - since > DwellThreshold
  }

  function StayAction(s: StayState, d: Elem, tr: Transition, now: Time): (r: StayState)
    // enter restarts the span
    ensures tr == Enter ==>
      r.stayed == s.stayed && r.access == s.access[d := now] && r.left == s.left - {d}
    // exit with nothing to measure, or after the timer already closed the span
    ensures tr == Exit && (d !in s.access || d in s.left) ==> r == s
    // a measuring exit: the element is staged iff the span was long enough,
    // and both stamps are gone afterwards
    ensures tr == Exit && d in s.access && d !in s.left ==>
      && r.access == s.access - {d}
      && r.left == s.left
      && d !in r.access && d !in r.left
      && (LongDwell(s.access[d], now) ==> r.stayed == s.stayed + [d])
      && (!LongDwell(s.access[d], now) ==> r.stayed == s.stayed)
  {
    match tr
    case Enter =>
      StayState(s.stayed, s.access[d := now], s.left - {d})
    case Exit =>
      if d !in s.access || d in s.left then s
      else
        var since := s.access[d];
        var stayed := if now - since > DwellThreshold then s.stayed + [d] else s.stayed;
        StayState(stayed, s.access - {d}, s.left)
  }

  /** A stay list only grows through measuring exits of long spans: whatever
      one action appends is the entry's element, and only after a span
      longer than the dwell threshold. */
  lemma StayAppendsOnlyLongSpans(s: StayState, d: Elem, tr: Transition, now: Time)
    ensures var r := StayAction(s, d, tr, now);
      && s.stayed <= r.stayed
      && (r.stayed != s.stayed ==>
            && tr == Exit && d in s.access && d !in s.left
            && LongDwell(s.access[d], now)
            && r.stayed == s.stayed + [d])
  {
  }

  /* -------------- live visible list `domsVisiable` (show.js:102-117) -------------- */

  /** The exit loop walks the list with `splice(i, 1)` and then still
      increments `i`, so the element that slid into slot `i` is never
      examined. This is that loop, written as a recursion over the list. */
  function SpliceOut(v: seq<Elem>, d: Elem): (r: seq<Elem>)
    ensures |r| <= |v|
    decreases |v|
  {
    if |v| == 0 then []
    else if v[0] == d then
      (if |v| == 1 then [] else [v[1]] + SpliceOut(v[2..], d))
    else [v[0]] + SpliceOut(v[1..], d)
  }

  /** The splice loop never drops an element other than `d`, never reorders,
      and removes at least one `d` when there is one. */
  lemma {:induction false} SpliceOutKeepsOthers(v: seq<Elem>, d: Elem)
    ensures Without(SpliceOut(v, d), d) == Without(v, d)
    ensures Count(SpliceOut(v, d), d) <= Count(v, d)
    ensures d in v ==> Count(SpliceOut(v, d), d) < Count(v, d)
    decreases |v|
  {
    if |v| == 0 {
    } else if v[0] == d {
      if |v| == 1 {
      } else {
        var rest := SpliceOut(v[2..], d);
        SpliceOutKeepsOthers(v[2..], d);
        assert v[1..][1..] == v[2..];
        assert ([v[1]] + rest)[1..] == rest;
        assert SpliceOut(v, d) == [v[1]] + rest;
        CountZero(v[2..], d);
      }
    } else {
      var rest := SpliceOut(v[1..], d);
      SpliceOutKeepsOthers(v[1..], d);
      assert ([v[0]] + rest)[1..] == rest;
      assert SpliceOut(v, d) == [v[0]] + rest;
      assert d in v ==> d in v[1..] by {
        if d in v {
          var k :| 0 <= k < |v| && v[k] == d;
          assert v[1..][k - 1] == d;
        }
      }
    }
  }

  /** Enter appends without any duplicate check; exit runs the splice loop. */
  function VisibleAction(v: seq<Elem>, d: Elem, tr: Transition): (r: seq<Elem>)
    ensures tr == Enter ==> r == v + [d]
    ensures tr == Exit ==> Without(r, d) == Without(v, d) && |r| <= |v|
    ensures tr == Exit && d in v ==> Count(r, d) < Count(v, d)
    ensures tr == Exit && d !in v ==> r == v
  {
    if tr == Enter then v + [d]
    else
      SpliceOutKeepsOthers(v, d);
      if d !in v then SpliceOutAbsent(v, d); SpliceOut(v, d)
      else SpliceOut(v, d)
  }

  /** One pass of the loop body that finds `d` at slot `i` and splices it. */
  lemma SpliceStep(w: seq<Elem>, i: nat, d: Elem)
    requires i + 1 < |w| && w[i] == d
    ensures var w' := w[..i] + w[i + 1..];
      w'[..i + 1] + SpliceOut(w'[i + 1..], d) == w[..i] + SpliceOut(w[i..], d)
  {
    var w' := w[..i] + w[i + 1..];
    assert w[i..][2..] == w[i + 2..];
    assert w'[..i + 1] == w[..i] + [w[i + 1]];
    assert w'[i + 1..] == w[i + 2..];
  }

  /** One pass of the loop body that finds another element at slot `i`. */
  lemma SkipStep(w: seq<Elem>, i: nat, d: Elem)
    requires i < |w| && w[i] != d
    ensures w[..i + 1] + SpliceOut(w[i + 1..], d) == w[..i] + SpliceOut(w[i..], d)
  {
    assert w[i..][1..] == w[i + 1..];
    assert w[..i + 1] == w[..i] + [w[i]];
  }

  /** The splice loop of show.js:110-114 as an in-place walk over the list; it
      computes exactly `SpliceOut`. */
  method SpliceLoop(v: seq<Elem>, d: Elem) returns (w: seq<Elem>)
    ensures w == SpliceOut(v, d)
  {
    w := v;
    var i := 0;
    while i < |w|
      invariant 0 <= i <= |w| + 1
      invariant i <= |w| ==> w[..i] + SpliceOut(w[i..], d) == SpliceOut(v, d)
      invariant i == |w| + 1 ==> w == SpliceOut(v, d)
      decreases |w| + 1 - i
    {
      if w[i] == d {
        if i + 1 < |w| {
          SpliceStep(w, i, d);
        } else {
          assert w[i..] == [d];
          assert w[..i] + w[i + 1..] == w[..i];
        }
        w := w[..i] + w[i + 1..];
      } else {
        SkipStep(w, i, d);
      }
      i := i + 1;
    }
    if i == |w| {
      assert w[..i] == w;
      assert w[i..] == [];
    }
  }

  /** An element absent from the list: exit changes nothing. */
  lemma {:induction false} SpliceOutAbsent(v: seq<Elem>, d: Elem)
    requires d !in v
    ensures SpliceOut(v, d) == v
  {
    if |v| > 0 {
      SpliceOutAbsent(v[1..], d);
      assert v == [v[0]] + v[1..];
    }
  }

  /** An element present at most once: exit removes exactly that occurrence and
      keeps every other element in its original order. */
  lemma {:induction false} SpliceOutSingle(v: seq<Elem>, d: Elem, k: nat)
    requires k < |v| && v[k] == d
    requires Count(v, d) == 1
    ensures SpliceOut(v, d) == v[..k] + v[k + 1..]
    decreases |v|
  {
    if k == 0 {
      SpliceOutHead(v, d);
    } else {
      assert v[1..][k - 1] == d;
      assert v[0] != d by {
        if v[0] == d {
          CountZero(v[1..], d);
        }
      }
      assert Count(v[1..], d) == 1;
      SpliceOutSingle(v[1..], d, k - 1);
      assert SpliceOut(v, d) == [v[0]] + SpliceOut(v[1..], d);
      assert v[..k] + v[k + 1..] == [v[0]] + (v[1..][..k - 1] + v[1..][k..]);
    }
  }

  lemma SpliceOutHead(v: seq<Elem>, d: Elem)
    requires 0 < |v| && v[0] == d && Count(v, d) == 1
    ensures SpliceOut(v, d) == v[1..]
  {
    assert Count(v[1..], d) == 0;
    CountZero(v[1..], d);
    if |v| > 1 {
      assert v[1..][1..] == v[2..];
      SpliceOutAbsent(v[2..], d);
      assert v[1..] == [v[1]] + v[2..];
    }
  }

  /** An element that enters and then leaves, and was not listed before,
      leaves the visible list as it was. */
  lemma {:induction false} EnterThenExit(v: seq<Elem>, d: Elem)
    requires d !in v
    ensures VisibleAction(VisibleAction(v, d, Enter), d, Exit) == v
    decreases |v|
  {
    if |v| == 0 {
      assert v + [d] == [d];
    } else {
      EnterThenExit(v[1..], d);
      assert (v + [d])[1..] == v[1..] + [d];
      assert v == [v[0]] + v[1..];
    }
  }

  /** Two adjacent copies of an element: exit removes only the first, so the
      element is still listed as visible after it left. */
  lemma SpliceOutSkipsAdjacent(d: Elem, rest: seq<Elem>)
    ensures SpliceOut([d, d] + rest, d) == [d] + SpliceOut(rest, d)
    ensures d in SpliceOut([d, d], d)
  {
    assert ([d, d] + rest)[2..] == rest;
  }
}

=== FILE: base.dfy ===
/** Shared vocabulary of the visibility tracker: optional values, element
    identities, timestamps and a few facts about sequences of elements. */
module Base {

  /** The conventional Some/None datatype, used for absent timestamps and
      for JavaScript's `undefined`. */
  datatype Option<+T> = None | Some(value: T)

  /** A tracked element is an opaque host object; only its identity matters. */
  type Elem = nat

  /** A wall-clock reading in milliseconds. `Date.now()` is always positive, so
      the source's truthiness test on a stored timestamp is the same as
      "a timestamp is recorded". */
  type Time = t: int | t > 0 witness 1

  /** The set of values occurring in a sequence. */
  function Elems<T>(s: seq<T>): set<T>
  {
    set x | x in s
  }

  /** No value occurs twice. */
  predicate NoDup<T(==)>(s: seq<T>)
  {
    forall i, j :: 0 <= i < j < |s| ==> s[i] != s[j]
  }

  /** Number of occurrences of `x` in `s`. */
  function Count<T(==)>(s: seq<T>, x: T): nat
  {
    if |s| == 0 then 0 else (if s[0] == x then 1 else 0) + Count(s[1..], x)
  }

  /** `s` with every occurrence of `x` dropped, other values in their order. */
  function Without<T(==)>(s: seq<T>, x: T): seq<T>
  {
    if |s| == 0 then [] else (if s[0] == x then [] else [s[0]]) + Without(s[1..], x)
  }

  /** The position of the first occurrence of `x` in `s`. */
  function FirstIndex<T(==)>(s: seq<T>, x: T): (k: nat)
    requires x in s
    ensures k < |s| && s[k] == x
    ensures forall j :: 0 <= j < k ==> s[j] != x
  {
    if s[0] == x then 0 else 1 + FirstIndex(s[1..], x)
  }

  lemma {:induction false} CountZero<T>(s: seq<T>, x: T)
    ensures Count(s, x) == 0 <==> x !in s
  {
    if |s| > 0 {
      CountZero(s[1..], x);
      assert s == [s[0]] + s[1..];
    }
  }
}

=== FILE: classify.dfy ===
/** `enterOrExit` (show.js:200-206): the observer reports a visible-area
    ratio for each element, and a single threshold splits it into an enter or
    an exit transition. */
module Classify {

  import opened Base

  datatype Transition = Enter | Exit

  /** The literal the source compares against. It is slightly below 2/3. */
  const Threshold: real := 0.6666666

  /** An observer entry: the target element and its intersection ratio. */
  datatype Entry = Entry(target: Elem, ratio: real)

  function EnterOrExit(ratio: real): (tr: Transition)
    ensures tr == Enter <==> ratio > Threshold
    ensures tr == Exit <==> ratio <= Threshold
  {
    if ratio > Threshold then Enter else Exit
  }

  /** An element that is exactly two thirds visible counts as entered, because
      the literal threshold lies below 2/3; at or below the literal it exits. */
  lemma TwoThirdsEnters()
    ensures EnterOrExit(2.0 / 3.0) == Enter
    ensures EnterOrExit(Threshold) == Exit
    ensures EnterOrExit(0.0) == Exit && EnterOrExit(1.0) == Enter
  {
  }
}

=== FILE: dispatch_facts.dfy ===
/** What dispatching an event does to a tracker whose registry has the shape
    the constructor gives it: caller handlers registered before the
    tracker's own handler, then that handler, then caller handlers added
    later with `on`. */
module DispatchFacts {

  import opened Base
  import opened Registry
  import opened Show

  /** Every handler in the list is a caller's function. */
  predicate UserOnly(hs: seq<Handler>)
  {
    forall i :: 0 <= i < |hs| ==> hs[i].UserFn?
  }

  /** How many caller handlers come before the first built-in one. */
  function UserPrefix(hs: seq<Handler>): (k: nat)
    ensures k <= |hs|
    ensures UserOnly(hs[..k])
    ensures k < |hs| ==> !hs[k].UserFn?
    decreases |hs|
  {
    if |hs| == 0 || !hs[0].UserFn? then 0
    else
      var k := 1 + UserPrefix(hs[1..]);
      assert forall i :: 1 <= i < k ==> hs[..k][i] == hs[1..][..k - 1][i - 1];
      k
  }

  /** The caller handlers registered before the built-in one. */
  function Before(hs: seq<Handler>): seq<Handler>
  {
    hs[..UserPrefix(hs)]
  }

  /** The handlers registered after the built-in block `core`. */
  function After(hs: seq<Handler>, core: seq<Handler>): seq<Handler>
  {
    var k := UserPrefix(hs);
    if k + |core| <= |hs| then hs[k + |core|..] else []
  }

  /** The list is caller handlers, then exactly `core`, then caller handlers. */
  predicate Shaped(hs: seq<Handler>, core: seq<Handler>)
  {
    var k := UserPrefix(hs);
    && k + |core| <= |hs|
    && hs[k..k + |core|] == core
    && UserOnly(hs[k + |core|..])
  }

  lemma ShapedSplit(hs: seq<Handler>, core: seq<Handler>)
    requires Shaped(hs, core)
    ensures hs == Before(hs) + core + After(hs, core)
    ensures UserOnly(Before(hs)) && UserOnly(After(hs, core))
  {
    var k := UserPrefix(hs);
    assert hs == hs[..k] + hs[k..k + |core|] + hs[k + |core|..];
  }

  /** The registry the constructor builds, kept by every later `on`. */
  predicate Wired(ev: Events)
  {
    && "stop" in ev && Shaped(ev["stop"], Core("stop"))
    && "init" in ev && Shaped(ev["init"], Core("init"))
    && "stay" in ev && Shaped(ev["stay"], Core("stay"))
    && "stop-stay" in ev && Shaped(ev["stop-stay"], Core("stop-stay"))
    && forall n :: n in ev && !BuiltinName(n) ==> UserOnly(ev[n])
  }

  /** The calls a list of caller handlers makes when each receives `seen`. */
  function CallsOf(us: seq<Handler>, name: string, seen: Seen): seq<Call>
    decreases |us|
  {
    if |us| == 0 then []
    else (if us[0].UserFn? then [Call(us[0].id, name, seen)] else []) + CallsOf(us[1..], name, seen)
  }

  /** Every caller's handler in the list is logged with the shared argument. */
  lemma {:induction false} CallsOfHas(us: seq<Handler>, name: string, seen: Seen, f: nat)
    requires UserFn(f) in us
    ensures Call(f, name, seen) in CallsOf(us, name, seen)
  {
    if us[0] != UserFn(f) {
      CallsOfHas(us[1..], name, seen, f);
    }
  }

  /* ------------------------- running handler lists ------------------------- */

  /** Caller handlers only log their call; they all see the same argument. */
  lemma {:induction false} RunUsers(t: Tracker, name: string, p: Payload, us: seq<Handler>, depth: nat)
    requires UserOnly(us)
    ensures RunHandlers(t, name, p, us, depth)
         == Outcome(t.(log := t.log + CallsOf(us, name, SeeArg(t, p))), false)
    decreases |us|
  {
    if |us| > 0 {
      var t1 := t.(log := t.log + [Call(us[0].id, name, SeeArg(t, p))]);
      assert RunHandler(t, name, p, us[0], depth) == Outcome(t1, false);
      assert UserOnly(us[1..]) by {
        forall i | 0 <= i < |us[1..]| ensures us[1..][i].UserFn? {
          assert us[1..][i] == us[i + 1];
        }
      }
      assert RunHandlers(t, name, p, us, depth) == RunHandlers(t1, name, p, us[1..], depth);
      var seen := SeeArg(t, p);
      assert SeeArg(t1, p) == seen;
      RunUsers(t1, name, p, us[1..], depth);
      var rest := CallsOf(us[1..], name, seen);
      assert CallsOf(us, name, seen) == [Call(us[0].id, name, seen)] + rest;
      var log := t.log + CallsOf(us, name, seen);
      assert t1.log + rest == log;
      assert RunHandlers(t1, name, p, us[1..], depth) == Outcome(t1.(log := log), false);
      assert t1.(log := log) == t.(log := log);
    } else {
      assert CallsOf(us, name, SeeArg(t, p)) == [];
      assert t.log + [] == t.log;
      assert t.(log := t.log) == t;
    }
  }

  /** Running `xs + ys` runs `xs`, then `ys` unless `xs` threw. */
  lemma {:induction false} RunAppend(t: Tracker, name: string, p: Payload, xs: seq<Handler>, ys: seq<Handler>, depth: nat)
    ensures var o := RunHandlers(t, name, p, xs, depth);
      RunHandlers(t, name, p, xs + ys, depth)
        == (if o.threw then o else RunHandlers(o.t, name, p, ys, depth))
    decreases |xs|
  {
    if |xs| == 0 {
      assert xs + ys == ys;
    } else {
      assert (xs + ys)[0] == xs[0];
      assert (xs + ys)[1..] == xs[1..] + ys;
      var o1 := RunHandler(t, name, p, xs[0], depth);
      if !o1.threw {
        RunAppend(o1.t, name, p, xs[1..], ys, depth);
      }
    }
  }

  /** The tracker after a flush through the built-in block `core` of array `a`. */
  function Flushed(t: Tracker, core: seq<Handler>, a: ArrayRef): Tracker
  {
    Emptied(if ArmStayTimer in core then ArmTimer(t) else t, a)
  }

  /** The built-in block alone: it arms the timer if it holds
      `ArmStayTimer`, then empties the array. */
  lemma CoreRun(t: Tracker, name: string, a: ArrayRef, core: seq<Handler>, depth: nat)
    requires core == [ClearArray] || core == [ArmStayTimer, ClearArray]
    ensures RunHandlers(t, name, Arr(a), core, depth) == Outcome(Flushed(t, core, a), false)
  {
    var p := Arr(a);
    if core == [ClearArray] {
      assert ArmStayTimer !in core;
      assert RunHandler(t, name, p, ClearArray, depth) == Outcome(Emptied(t, a), false);
      assert core[1..] == [];
    } else {
      assert ArmStayTimer in core;
      var t0 := ArmTimer(t);
      assert RunHandler(t, name, p, ArmStayTimer, depth) == Outcome(t0, false);
      assert core[1..] == [ClearArray];
      assert RunHandler(t0, name, p, ClearArray, depth) == Outcome(Emptied(t0, a), false);
      assert RunHandlers(t0, name, p, [ClearArray], depth) == Outcome(Emptied(t0, a), false);
    }
  }

  /** A list shaped around a clearing block: the earlier caller handlers see the
      array's contents, the later ones see it empty, and the array ends empty. */
  lemma FlushRun(t: Tracker, name: string, a: ArrayRef, us1: seq<Handler>, core: seq<Handler>,
                 us2: seq<Handler>, depth: nat)
    requires UserOnly(us1) && UserOnly(us2)
    requires core == [ClearArray] || core == [ArmStayTimer, ClearArray]
    ensures RunHandlers(t, name, Arr(a), us1 + core + us2, depth)
         == Outcome(Flushed(t, core, a).(log := t.log
              + CallsOf(us1, name, SeenElems(Contents(t, a)))
              + CallsOf(us2, name, SeenElems([]))), false)
  {
    var p := Arr(a);
    RunAppend(t, name, p, us1 + core, us2, depth);
    RunAppend(t, name, p, us1, core, depth);
    RunUsers(t, name, p, us1, depth);
    var t1 := t.(log := t.log + CallsOf(us1, name, SeenElems(Contents(t, a))));
    var t2 := Flushed(t1, core, a);
    CoreRun(t1, name, a, core, depth);
    RunUsers(t2, name, p, us2, depth);
    assert SeeArg(t2, p) == SeenElems([]);
    assert t2 == Flushed(t, core, a).(log := t1.log);
  }

  /** `stop`, `stay` and `stop-stay` fired with one of the tracker's arrays in a
      wired registry: nothing throws, the array ends empty, and exactly the
      handlers registered before the built-in block saw its contents. */
  lemma FireFlush(t: Tracker, name: string, a: ArrayRef, depth: nat)
    requires Wired(t.events)
    requires name == "stop" || name == "stay" || name == "stop-stay"
    ensures var hs := t.events[name];
      Fire(t, name, Arr(a), depth)
        == Outcome(Flushed(t, Core(name), a).(log := t.log
             + CallsOf(Before(hs), name, SeenElems(Contents(t, a)))
             + CallsOf(After(hs, Core(name)), name, SeenElems([]))), false)
  {
    BuiltinNames();
    var hs := t.events[name];
    ShapedSplit(hs, Core(name));
    FlushRun(t, name, a, Before(hs), Core(name), After(hs, Core(name)), depth);
  }

  /** The built-in block given no array at all (`undefined` or `null`): it
      arms the timer if it holds `ArmStayTimer`, then `doms.length = 0` throws. */
  lemma CoreThrows(t: Tracker, name: string, p: Payload, core: seq<Handler>, depth: nat)
    requires p == NoArg || p == NullArg
    requires core == [ClearArray] || core == [ArmStayTimer, ClearArray]
    ensures RunHandlers(t, name, p, core, depth)
         == Outcome(if ArmStayTimer in core then ArmTimer(t) else t, true)
  {
    if core == [ClearArray] {
      assert ArmStayTimer !in core;
      assert RunHandler(t, name, p, ClearArray, depth) == Outcome(t, true);
    } else {
      assert ArmStayTimer in core;
      var t0 := ArmTimer(t);
      assert RunHandler(t, name, p, ArmStayTimer, depth) == Outcome(t0, false);
      assert core[1..] == [ClearArray];
      assert RunHandler(t0, name, p, ClearArray, depth) == Outcome(t0, true);
    }
  }

  /** A list shaped around a clearing block, run without an array: the
      earlier caller handlers run, then the block throws. */
  lemma ThrowRun(t: Tracker, name: string, p: Payload, us1: seq<Handler>, core: seq<Handler>,
                 us2: seq<Handler>, depth: nat)
    requires UserOnly(us1)
    requires p == NoArg || p == NullArg
    requires core == [ClearArray] || core == [ArmStayTimer, ClearArray]
    ensures RunHandlers(t, name, p, us1 + core + us2, depth)
         == Outcome((if ArmStayTimer in core then ArmTimer(t) else t).(log := t.log
              + CallsOf(us1, name, SeeArg(t, p))), true)
  {
    RunAppend(t, name, p, us1 + core, us2, depth);
    RunAppend(t, name, p, us1, core, depth);
    RunUsers(t, name, p, us1, depth);
    var t1 := t.(log := t.log + CallsOf(us1, name, SeeArg(t, p)));
    CoreThrows(t1, name, p, core, depth);
    assert ArmTimer(t1) == ArmTimer(t).(log := t1.log);
  }

  /** `stop`, `stay` or `stop-stay` fired without an array in a wired
      registry: the handlers registered before the built-in block run, the
      clearing handler throws, and no later handler runs. `stop` has armed
      the stay timer by then; no array is emptied. */
  lemma FireClearThrows(t: Tracker, name: string, p: Payload, depth: nat)
    requires Wired(t.events)
    requires name == "stop" || name == "stay" || name == "stop-stay"
    requires p == NoArg || p == NullArg
    ensures var hs := t.events[name];
      Fire(t, name, p, depth)
        == Outcome((if name == "stop" then ArmTimer(t) else t).(log := t.log
             + CallsOf(Before(hs), name, SeeArg(t, p))), true)
  {
    BuiltinNames();
    var hs := t.events[name];
    ShapedSplit(hs, Core(name));
    ThrowRun(t, name, p, Before(hs), Core(name), After(hs, Core(name)), depth);
    assert ArmStayTimer in Core(name) <==> name == "stop";
  }

  /** A name without built-in handlers (such as `begin`) only runs callers'
      handlers, in registration order. */
  lemma FireUsers(t: Tracker, name: string, p: Payload, depth: nat)
    requires Wired(t.events)
    requires !BuiltinName(name) && !Inherited(name)
    ensures Fire(t, name, p, depth)
         == Outcome(t.(log := t.log + CallsOf(Handlers(t.events, name), name, SeeArg(t, p))), false)
  {
    if name in t.events {
      RunUsers(t, name, p, t.events[name], depth);
    }
  }

  /** The built-in `init` handler: the full `stop` flush of the exposure list. */
  lemma InitCore(t: Tracker, depth: nat)
    requires Wired(t.events) && depth >= 1
    ensures var hs := t.events["stop"];
      RunHandlers(t, "init", NoArg, [FlushOnInit], depth)
        == Outcome(Emptied(ArmTimer(t), ShowList).(log := t.log
             + CallsOf(Before(hs), "stop", SeenElems(t.shown))
             + CallsOf(After(hs, [ArmStayTimer, ClearArray]), "stop", SeenElems([]))), false)
  {
    FireFlush(t, "stop", ShowList, depth - 1);
    assert RunHandler(t, "init", NoArg, FlushOnInit, depth) == Fire(t, "stop", Arr(ShowList), depth - 1);
    assert Core("stop") == [ArmStayTimer, ClearArray];
  }

  /** `init` in a wired registry, with room for the nested `stop`: the
      handlers registered before the built-in one run, then the exposure flush
      through `stop`, then the later `init` handlers. */
  lemma FireInit(t: Tracker, depth: nat)
    requires Wired(t.events) && depth >= 1
    ensures var hi := t.events["init"];
      var hs := t.events["stop"];
      Fire(t, "init", NoArg, depth)
        == Outcome(Emptied(ArmTimer(t), ShowList).(log := t.log
             + CallsOf(Before(hi), "init", SeenNothing)
             + CallsOf(Before(hs), "stop", SeenElems(t.shown))
             + CallsOf(After(hs, [ArmStayTimer, ClearArray]), "stop", SeenElems([]))
             + CallsOf(After(hi, [FlushOnInit]), "init", SeenNothing)), false)
  {
    BuiltinNames();
    var hi := t.events["init"];
    var hs := t.events["stop"];
    ShapedSplit(hi, [FlushOnInit]);
    var us1, us2 := Before(hi), After(hi, [FlushOnInit]);
    RunAppend(t, "init", NoArg, us1 + [FlushOnInit], us2, depth);
    RunAppend(t, "init", NoArg, us1, [FlushOnInit], depth);
    RunUsers(t, "init", NoArg, us1, depth);
    var t1 := t.(log := t.log + CallsOf(us1, "init", SeenNothing));
    InitCore(t1, depth);
    var t2 := Emptied(ArmTimer(t1), ShowList).(log := t1.log
             + CallsOf(Before(hs), "stop", SeenElems(t.shown))
             + CallsOf(After(hs, [ArmStayTimer, ClearArray]), "stop", SeenElems([])));
    RunUsers(t2, "init", NoArg, us2, depth);
    assert t2 == Emptied(ArmTimer(t), ShowList).(log := t2.log);
  }
}

=== FILE: registry.dfy ===
/** The event registry behind `on` (show.js:229-246): a map from event name to
    the ordered list of handlers registered under it. */
module Registry {

  import opened Base

  /** A handler is either a caller's function, known only by an id, or one of
      the three closures the tracker registers for itself:
      - `ArmStayTimer`, the `on('stop')` handler that starts the stay timer
        (show.js:167-169);
      - `FlushOnInit`, the `on('init')` handler that fires `stop` with the
        exposure list (show.js:172-174);
      - `ClearArray`, the handler for `stop`, `stay` and `stop-stay` that empties
        whatever array it is given (show.js:177-179). */
  datatype Handler = UserFn(id: nat) | ArmStayTimer | FlushOnInit | ClearArray

  /** `on` accepts a single name or an array of names; array items may
      themselves be arrays, because `on` recurses on each item. */
  datatype NameArg = Name(s: string) | Names(items: seq<NameArg>)

  type Events = map<string, seq<Handler>>

  /** The registry after a call, and whether the call threw a TypeError part
      way through (registrations made before the throw remain). */
  datatype Registered = Registered(events: Events, threw: bool)

  /** `\w` of a JavaScript regular expression, plus the hyphen. */
  predicate WordChar(c: char)
  {
    ('a' <= c <= 'z') || ('A' <= c <= 'Z') || ('0' <= c <= '9') || c == '_' || c == '-'
  }

  /** `/^[\w-]+$/`: non-empty, every character a word character or `-`. */
  predicate ValidName(s: string)
  {
    |s| > 0 && forall i :: 0 <= i < |s| ==> WordChar(s[i])
  }

  /** The registry is a plain object, so these property names of
      `Object.prototype` are already "present" in it. They all pass the name
      test, and for each of them the inherited value has no `push` and no
      `forEach`, so registering or firing under such a name throws. */
  predicate Inherited(s: string)
  {
    s in {"constructor", "hasOwnProperty", "isPrototypeOf", "propertyIsEnumerable",
          "toLocaleString", "toString", "valueOf", "__proto__",
          "__defineGetter__", "__defineSetter__", "__lookupGetter__", "__lookupSetter__"}
  }

  /** The handlers registered under a name; none if the name was never used. */
  function Handlers(ev: Events, name: string): seq<Handler>
  {
    if name in ev then ev[name] else []
  }

  /** `on` for one name. `fn == None` stands for a value that is not a function. */
  function OnName(ev: Events, name: string, fn: Option<Handler>): (r: Registered)
    ensures !(ValidName(name) && fn.Some?) ==> r == Registered(ev, false)
    ensures ValidName(name) && fn.Some? && Inherited(name) ==> r == Registered(ev, true)
    ensures ValidName(name) && fn.Some? && !Inherited(name) ==>
      && !r.threw
      && r.events.Keys == ev.Keys + {name}
      && r.events[name] == Handlers(ev, name) + [fn.value]
      && forall n :: n in ev && n != name ==> r.events[n] == ev[n]
  {
    if ValidName(name) && fn.Some? then
      if Inherited(name) then Registered(ev, true)
      else Registered(ev[name := Handlers(ev, name) + [fn.value]], false)
    else Registered(ev, false)
  }

  /** `on(eventName, eventFn)`: an array registers under each item in turn;
      a throw stops the remaining items. */
  function On(ev: Events, names: NameArg, fn: Option<Handler>): Registered
    decreases names, 1
  {
    match names
    case Name(s) => OnName(ev, s, fn)
    case Names(items) => OnEach(ev, items, fn)
  }

  function OnEach(ev: Events, items: seq<NameArg>, fn: Option<Handler>): Registered
    decreases items, 0
  {
    if |items| == 0 then Registered(ev, false)
    else
      var r := On(ev, items[0], fn);
      if r.threw then r else OnEach(r.events, items[1..], fn)
  }

  /** A value that is not a function is never registered, whatever the names. */
  lemma {:induction false} OnIgnoresNonFunction(ev: Events, names: NameArg)
    ensures On(ev, names, None) == Registered(ev, false)
    decreases names, 1
  {
    match names
    case Name(s) =>
    case Names(items) => OnEachIgnoresNonFunction(ev, items);
  }

  lemma {:induction false} OnEachIgnoresNonFunction(ev: Events, items: seq<NameArg>)
    ensures OnEach(ev, items, None) == Registered(ev, false)
    decreases items, 0
  {
    if |items| > 0 {
      OnIgnoresNonFunction(ev, items[0]);
      OnEachIgnoresNonFunction(ev, items[1..]);
    }
  }

  /** An array of plain names. */
  function NameList(ss: seq<string>): (r: seq<NameArg>)
    ensures |r| == |ss|
    ensures forall i :: 0 <= i < |ss| ==> r[i] == Name(ss[i])
  {
    seq(|ss|, i requires 0 <= i < |ss| => Name(ss[i]))
  }

  /** An array of names registers under its first name, then under the rest. */
  lemma OnNamesCons(ev: Events, ss: seq<string>, fn: Option<Handler>)
    requires |ss| > 0
    ensures On(ev, Names(NameList(ss)), fn)
         == var r := OnName(ev, ss[0], fn);
            if r.threw then r else On(r.events, Names(NameList(ss[1..])), fn)
  {
    var items := NameList(ss);
    assert On(ev, Names(items), fn) == OnEach(ev, items, fn);
    assert items[0] == Name(ss[0]);
    assert On(ev, items[0], fn) == OnName(ev, ss[0], fn);
    assert items[1..] == NameList(ss[1..]);
  }

  /** The items of an array are registered one after another: registering
      under `items + [x]` is registering under `items` and then, unless that
      threw, under `x`. Repeated names, unacceptable names and nested arrays
      are all covered. */
  lemma {:induction false} OnEachSnoc(ev: Events, items: seq<NameArg>, x: NameArg, fn: Option<Handler>)
    ensures OnEach(ev, items + [x], fn)
         == var r := OnEach(ev, items, fn);
            if r.threw then r else On(r.events, x, fn)
    decreases |items|
  {
    if |items| == 0 {
      assert items + [x] == [x];
      assert [x][1..] == [];
    } else {
      assert (items + [x])[0] == items[0];
      assert (items + [x])[1..] == items[1..] + [x];
      var r1 := On(ev, items[0], fn);
      if !r1.threw {
        OnEachSnoc(r1.events, items[1..], x, fn);
      }
    }
  }

  /** The same for an array of plain names. */
  lemma OnNamesSnoc(ev: Events, ss: seq<string>, s: string, fn: Option<Handler>)
    ensures On(ev, Names(NameList(ss + [s])), fn)
         == var r := On(ev, Names(NameList(ss)), fn);
            if r.threw then r else OnName(r.events, s, fn)
  {
    assert NameList(ss + [s]) == NameList(ss) + [Name(s)];
    OnEachSnoc(ev, NameList(ss), Name(s), fn);
  }

  /** A name listed twice gets the function twice. */
  lemma OnRepeatedName(ev: Events, s: string, h: Handler)
    requires ValidName(s) && !Inherited(s)
    ensures var r := On(ev, Names([Name(s), Name(s)]), Some(h));
      !r.threw && Handlers(r.events, s) == Handlers(ev, s) + [h, h]
  {
    var r1 := OnName(ev, s, Some(h));
    OnNamesCons(ev, [s], Some(h));
    assert NameList([s][1..]) == [];
    assert On(r1.events, Names([]), Some(h)) == Registered(r1.events, false);
    var r0 := On(ev, Names(NameList([s])), Some(h));
    assert !r0.threw && Handlers(r0.events, s) == Handlers(ev, s) + [h];
    OnNamesSnoc(ev, [s], s, Some(h));
    assert [Name(s), Name(s)] == NameList([s] + [s]);
  }

  /** Registering one function under an array of distinct acceptable names
      appends it to the handler list of each of those names, and leaves every
      other name as it was. */
  lemma {:induction false} OnEveryName(ev: Events, ss: seq<string>, h: Handler)
    requires NoDup(ss)
    requires forall i :: 0 <= i < |ss| ==> ValidName(ss[i]) && !Inherited(ss[i])
    ensures var r := On(ev, Names(NameList(ss)), Some(h));
      && !r.threw
      && (forall n :: n in r.events <==> n in ev || n in ss)
      && (forall s :: s in ss ==> r.events[s] == Handlers(ev, s) + [h])
      && (forall n :: n in ev && n !in ss ==> r.events[n] == ev[n])
    decreases |ss|
  {
    if |ss| > 0 {
      var r1 := OnName(ev, ss[0], Some(h));
      assert NameList(ss)[1..] == NameList(ss[1..]);
      assert NoDup(ss[1..]) by {
        forall i, j | 0 <= i < j < |ss[1..]| ensures ss[1..][i] != ss[1..][j] {
          assert ss[1..][i] == ss[i + 1] && ss[1..][j] == ss[j + 1];
        }
      }
      OnEveryName(r1.events, ss[1..], h);
      assert forall n :: n in ss <==> n == ss[0] || n in ss[1..] by {
        assert ss == [ss[0]] + ss[1..];
      }
      var r := On(ev, Names(NameList(ss)), Some(h));
      OnNamesCons(ev, ss, Some(h));
      forall s | s in ss
        ensures r.events[s] == Handlers(ev, s) + [h]
      {
        if s != ss[0] {
          assert s in ss[1..] by {
            var k :| 0 <= k < |ss| && ss[k] == s;
            assert ss[1..][k - 1] == s;
          }
          assert Handlers(r1.events, s) == Handlers(ev, s);
        }
      }
    }
  }
}

=== FILE: show.dfy ===
/** The `Show` tracker (show.js:42-265) with the host stripped away: the
    observer, the scroll listener, the debounce and the stay timer become
    inputs, `Date.now()` becomes a `now` argument, and a caller's handler is
    an opaque id whose invocations are recorded in a log. */
module Show {

  import opened Base
  import opened Classify
  import opened Actions
  import opened Registry

  /** The three arrays the tracker owns. Handlers receive them by reference, so
      the clearing handler empties the tracker's own array. */
  datatype ArrayRef = ShowList | StayList | VisibleList

  /** The first argument passed to `fireEvent` after the name: nothing
      (`undefined`), `null`, one of the tracker's arrays, or some other value
      of the caller's. */
  datatype Payload = NoArg | NullArg | Arr(which: ArrayRef) | Foreign(id: nat)

  /** What a caller's handler received as its first argument when it ran. */
  datatype Seen = SeenNothing | SeenNull | SeenElems(elems: seq<Elem>) | SeenForeign(id: nat)

  /** One invocation of a caller's handler. */
  datatype Call = Call(fn: nat, event: string, arg: Seen)

  /** Which pending stay timer elapses: the one `stayTimer` refers to, or an
      earlier one whose handle was overwritten by a later `stop`. */
  datatype TimerRef = Latest | Orphan

  datatype Tracker = Tracker(
    shown: seq<Elem>,          // domsShow: exposure list
    stayed: seq<Elem>,         // domsStay: stay candidates
    visible: seq<Elem>,        // domsVisiable: elements currently visible
    access: map<Elem, Time>,   // accessTime written onto each element
    left: map<Elem, Time>,     // leftTime written onto each element
    isInit: bool,              // the first observer batch has fired `init`
    begin: bool,               // a scroll burst is in progress
    debouncing: bool,          // the debounced stop is scheduled
    timerArmed: bool,          // `stayTimer` refers to a pending timer
    orphanTimers: nat,         // pending stay timers no handle refers to
    events: Events,
    log: seq<Call>)

  /** The tracker after an operation, and whether the operation threw part way
      (the state then holds every effect made before the throw). */
  datatype Outcome = Outcome(t: Tracker, threw: bool)

  /** How deeply a handler may fire events from inside a handler before the
      host's call stack overflows. Only `init -> stop` nests in a tracker
      built by `Create`, so any positive bound serves. */
  const StackDepth: nat := 16

  /* ------------------------------- arrays ------------------------------- */

  function Contents(t: Tracker, a: ArrayRef): seq<Elem>
  {
    match a
    case ShowList => t.shown
    case StayList => t.stayed
    case VisibleList => t.visible
  }

  /** `doms.length = 0` on one of the tracker's arrays. */
  function Emptied(t: Tracker, a: ArrayRef): (u: Tracker)
    ensures Contents(u, a) == []
    ensures forall b :: b != a ==> Contents(u, b) == Contents(t, b)
    ensures DispatchFrame(t, u)
  {
    match a
    case ShowList => t.(shown := [])
    case StayList => t.(stayed := [])
    case VisibleList => t.(visible := [])
  }

  function SeeArg(t: Tracker, p: Payload): Seen
  {
    match p
    case NoArg => SeenNothing
    case NullArg => SeenNull
    case Arr(a) => SeenElems(Contents(t, a))
    case Foreign(id) => SeenForeign(id)
  }

  /** Stay timers that are still due to elapse. */
  function PendingTimers(t: Tracker): nat
  {
    (if t.timerArmed then 1 else 0) + t.orphanTimers
  }

  /** `stayTimer = setTimeout(...)`: a new timer starts, and the one the handle
      referred to, if still pending, can no longer be cancelled. */
  function ArmTimer(t: Tracker): (u: Tracker)
    ensures u.timerArmed
    ensures PendingTimers(u) == PendingTimers(t) + 1
    ensures DispatchFrame(t, u)
  {
    t.(timerArmed := true,
       orphanTimers := if t.timerArmed then t.orphanTimers + 1 else t.orphanTimers)
  }

  /* ------------------------------ dispatch ------------------------------ */

  /** What dispatching an event may change: handlers never touch the
      registry, the timestamps or the flags; an array is either left alone or
      emptied; the stay timer can only be armed; the log only grows. */
  predicate DispatchFrame(t: Tracker, u: Tracker)
  {
    && u.events == t.events
    && u.access == t.access && u.left == t.left
    && u.isInit == t.isInit && u.begin == t.begin && u.debouncing == t.debouncing
    && (u.shown == t.shown || u.shown == [])
    && (u.stayed == t.stayed || u.stayed == [])
    && (u.visible == t.visible || u.visible == [])
    && (t.timerArmed ==> u.timerArmed)
    && t.orphanTimers <= u.orphanTimers
    && t.log <= u.log
  }

  /** `fireEvent(name, p)` for a defined name (show.js:247-261), with
      `depth` nested dispatches left before the stack overflows. */
  function Fire(t: Tracker, name: string, p: Payload, depth: nat): (o: Outcome)
    ensures DispatchFrame(t, o.t)
    ensures Inherited(name) ==> o == Outcome(t, true)
    ensures !Inherited(name) && name !in t.events ==> o == Outcome(t, false)
    decreases depth, 2, 0
  {
    if Inherited(name) then Outcome(t, true)
    else if name !in t.events then Outcome(t, false)
    else RunHandlers(t, name, p, t.events[name], depth)
  }

  /** The handlers of one name, in registration order; a throw skips the rest. */
  function RunHandlers(t: Tracker, name: string, p: Payload, hs: seq<Handler>, depth: nat): (o: Outcome)
    ensures DispatchFrame(t, o.t)
    decreases depth, 1, |hs|
  {
    if |hs| == 0 then Outcome(t, false)
    else
      var o := RunHandler(t, name, p, hs[0], depth);
      if o.threw then o else RunHandlers(o.t, name, p, hs[1..], depth)
  }

  function RunHandler(t: Tracker, name: string, p: Payload, h: Handler, depth: nat): (o: Outcome)
    ensures DispatchFrame(t, o.t)
    decreases depth, 0, 0
  {
    match h
    case UserFn(id) =>
      Outcome(t.(log := t.log + [Call(id, name, SeeArg(t, p))]), false)
    case ArmStayTimer =>
      Outcome(ArmTimer(t), false)
    case FlushOnInit =>
      if depth == 0 then Outcome(t, true)
      else Fire(t, "stop", Arr(ShowList), depth - 1)
    case ClearArray =>
      match p
      case NoArg => Outcome(t, true)     // `undefined.length = 0` throws
      case NullArg => Outcome(t, true)   // so does `null.length = 0`
      case Arr(a) => Outcome(Emptied(t, a), false)
      case Foreign(_) => Outcome(t, false)
  }

  /** The public `fireEvent`; `None` is an undefined name, which returns at once. */
  function FireEvent(t: Tracker, name: Option<string>, p: Payload): (o: Outcome)
    ensures DispatchFrame(t, o.t)
    ensures name.None? ==> o == Outcome(t, false)
  {
    match name
    case None => Outcome(t, false)
    case Some(n) => Fire(t, n, p, StackDepth)
  }

  /** The public `on`: only a caller's function or a non-function can be passed. */
  function Listen(t: Tracker, names: NameArg, fn: Option<nat>): (o: Outcome)
    ensures o.t == t.(events := o.t.events)
  {
    var r := On(t.events, names, UserHandler(fn));
    Outcome(t.(events := r.events), r.threw)
  }

  function UserHandler(fn: Option<nat>): Option<Handler>
  {
    match fn
    case None => None
    case Some(id) => Some(UserFn(id))
  }

  /* ---------------------------- observer batch ---------------------------- */

  /** The actions show, stay and visible for one entry (show.js:123-127). */
  function ApplyEntry(t: Tracker, e: Entry, now: Time): (u: Tracker)
    ensures u.events == t.events && u.log == t.log
    ensures u.isInit == t.isInit && u.begin == t.begin && u.debouncing == t.debouncing
    ensures u.timerArmed == t.timerArmed && u.orphanTimers == t.orphanTimers
    ensures NoDup(t.shown) ==> NoDup(u.shown)
  {
    var tr := EnterOrExit(e.ratio);
    var s := StayAction(StayState(t.stayed, t.access, t.left), e.target, tr, now);
    t.(shown := ShowAction(t.shown, e.target, tr),
       stayed := s.stayed, access := s.access, left := s.left,
       visible := VisibleAction(t.visible, e.target, tr))
  }

  /** Every entry of a batch, in order. */
  function ApplyEntries(t: Tracker, es: seq<Entry>, now: Time): (u: Tracker)
    ensures u.events == t.events && u.log == t.log
    ensures u.isInit == t.isInit && u.begin == t.begin && u.debouncing == t.debouncing
    ensures u.timerArmed == t.timerArmed && u.orphanTimers == t.orphanTimers
    ensures NoDup(t.shown) ==> NoDup(u.shown)
    decreases |es|
  {
    if |es| == 0 then t else ApplyEntries(ApplyEntry(t, es[0], now), es[1..], now)
  }

  /** The observer callback (show.js:122-134): all entries first, then `init`
      once, the first time a batch arrives. */
  function ObserverBatch(t: Tracker, es: seq<Entry>, now: Time): (o: Outcome)
    ensures o.t.events == t.events && t.log <= o.t.log
    ensures !o.threw ==> o.t.isInit
    ensures t.isInit ==> !o.threw && o.t.log == t.log
  {
    var u := ApplyEntries(t, es, now);
    if u.isInit then Outcome(u, false)
    else
      var o := Fire(u, "init", NoArg, StackDepth);
      if o.threw then o else Outcome(o.t.(isInit := true), false)
  }

  /* ------------------------------ stay timer ------------------------------ */

  /** show.js:149-155: each visible element that is neither a candidate yet
      nor stamped with `leftTime` joins the candidates, in visible order. */
  function MergeVisible(stayed: seq<Elem>, vis: seq<Elem>, left: map<Elem, Time>): (r: seq<Elem>)
    ensures stayed <= r
    ensures forall i :: |stayed| <= i < |r| ==> r[i] in vis && r[i] !in left && r[i] !in stayed
    decreases |vis|
  {
    if |vis| == 0 then stayed
    else
      var d := vis[0];
      var s1 := if d !in stayed && d !in left then stayed + [d] else stayed;
      MergeVisible(s1, vis[1..], left)
  }

  /** Every visible element without `leftTime` is a candidate after the merge. */
  lemma {:induction false} MergeVisibleCovers(stayed: seq<Elem>, vis: seq<Elem>, left: map<Elem, Time>)
    ensures forall x :: x in vis && x !in left ==> x in MergeVisible(stayed, vis, left)
    decreases |vis|
  {
    if |vis| > 0 {
      var d := vis[0];
      var s1 := if d !in stayed && d !in left then stayed + [d] else stayed;
      var r := MergeVisible(s1, vis[1..], left);
      MergeVisibleCovers(s1, vis[1..], left);
      assert MergeVisible(stayed, vis, left) == r;
      if d !in left {
        var k :| 0 <= k < |s1| && s1[k] == d;
        assert r[k] == d;
      }
      assert forall x :: x in vis ==> x == d || x in vis[1..];
    }
  }

  /** show.js:157-159: every candidate gets `leftTime = now`. */
  function StampLeft(left: map<Elem, Time>, xs: seq<Elem>, now: Time): (r: map<Elem, Time>)
    ensures r.Keys == left.Keys + Elems(xs)
    ensures forall x :: x in xs ==> r[x] == now
    ensures forall x :: x in left && x !in xs ==> r[x] == left[x]
  {
    left + map x | x in xs :: now
  }

  /** The timer body (show.js:147-164). */
  function StayTimerFires(t: Tracker, now: Time): (o: Outcome)
    ensures o.t.events == t.events && o.t.access == t.access
    ensures o.t.isInit == t.isInit && o.t.begin == t.begin && o.t.debouncing == t.debouncing
    ensures forall x :: x in t.left ==> x in o.t.left
    ensures forall x :: x in t.stayed ==> x in o.t.left && o.t.left[x] == now
    ensures forall x :: x in t.visible && x !in t.left ==> x in o.t.left && o.t.left[x] == now
    ensures t.log <= o.t.log
  {
    var merged := MergeVisible(t.stayed, t.visible, t.left);
    MergeVisibleCovers(t.stayed, t.visible, t.left);
    var u := t.(stayed := merged, left := StampLeft(t.left, merged, now));
    var o := Fire(u, "stay", Arr(StayList), StackDepth);
    if o.threw then o else Fire(o.t, "stop-stay", Arr(VisibleList), StackDepth)
  }

  /** A stay timer elapses. A timer that is not pending cannot elapse, so
      such an input changes nothing. */
  function StayTimerElapsed(t: Tracker, which: TimerRef, now: Time): (o: Outcome)
    ensures which == Latest && !t.timerArmed ==> o == Outcome(t, false)
    ensures which == Orphan && t.orphanTimers == 0 ==> o == Outcome(t, false)
    ensures o.t.events == t.events && o.t.access == t.access
    ensures o.t.isInit == t.isInit && o.t.begin == t.begin && o.t.debouncing == t.debouncing
  {
    match which
    case Latest =>
      if !t.timerArmed then Outcome(t, false)
      else StayTimerFires(t.(timerArmed := false), now)
    case Orphan =>
      if t.orphanTimers == 0 then Outcome(t, false)
      else StayTimerFires(t.(orphanTimers := t.orphanTimers - 1), now)
  }

  /* ------------------------------- scrolling ------------------------------- */

  /** The scroll listener (show.js:190-198): the first scroll of a burst fires
      `begin`, raises the flag and cancels the timer `stayTimer` refers to;
      every scroll (re)schedules the debounced stop. */
  function Scroll(t: Tracker): (o: Outcome)
    ensures o.t.events == t.events && o.t.access == t.access && o.t.left == t.left
    ensures !o.threw ==> o.t.begin && o.t.debouncing
    ensures t.begin ==> !o.threw && o.t.log == t.log && PendingTimers(o.t) == PendingTimers(t)
    ensures !t.begin && !o.threw ==> !o.t.timerArmed
  {
    if !t.begin then
      var o := Fire(t, "begin", NoArg, StackDepth);
      if o.threw then o
      else Outcome(o.t.(begin := true, timerArmed := false, debouncing := true), false)
    else Outcome(t.(debouncing := true), false)
  }

  /** The debounced stop (show.js:183-187): exposure goes out with `stop`, the
      stay candidates with `stop-stay`, and the burst ends. */
  function DebounceElapsed(t: Tracker): (o: Outcome)
    ensures !t.debouncing ==> o == Outcome(t, false)
    ensures t.debouncing ==> !o.t.debouncing
    ensures t.debouncing && !o.threw ==> !o.t.begin
    ensures o.t.events == t.events && o.t.access == t.access && o.t.left == t.left
  {
    if !t.debouncing then Outcome(t, false)
    else
      var o1 := Fire(t.(debouncing := false), "stop", Arr(ShowList), StackDepth);
      if o1.threw then o1
      else
        var o2 := Fire(o1.t, "stop-stay", Arr(StayList), StackDepth);
        if o2.threw then o2 else Outcome(o2.t.(begin := false), false)
  }

  /* ------------------------------ public API ------------------------------ */

  /** `reload` (show.js:213-224): empty the visible list, then fire `init`
      whether or not it fired before. Re-observing the elements only makes
      the host deliver fresh batches later. */
  function Reload(t: Tracker): (o: Outcome)
    ensures o.t.visible == []
    ensures o.t.events == t.events && o.t.isInit == t.isInit
    ensures o.t.access == t.access && o.t.left == t.left
    ensures t.log <= o.t.log
  {
    Fire(t.(visible := []), "init", NoArg, StackDepth)
  }

  /** `getVisibleDoms` (show.js:225-227): the live array itself, not a copy.
      Read in any later state, the handle yields that state's visible list,
      and it is the same array the stay timer hands to `stop-stay`. */
  function GetVisibleDoms(t: Tracker): (a: ArrayRef)
    ensures Contents(t, a) == t.visible
    ensures forall u: Tracker :: Contents(u, a) == u.visible
  {
    VisibleList
  }

  /** A freshly allocated tracker before any handler is registered. */
  function Blank(): Tracker
  {
    Tracker([], [], [], map[], map[], false, false, false, false, 0, map[], [])
  }

  /** The construction-time listeners, registered in enumeration order
      (show.js:58-62). */
  function OnListeners(ev: Events, ls: seq<(string, Option<nat>)>): Registered
    decreases |ls|
  {
    if |ls| == 0 then Registered(ev, false)
    else
      var r := OnName(ev, ls[0].0, UserHandler(ls[0].1));
      if r.threw then r else OnListeners(r.events, ls[1..])
  }

  /** The names the tracker registers its own handlers under. */
  predicate BuiltinName(n: string)
  {
    n == "stop" || n == "init" || n == "stay" || n == "stop-stay"
  }

  /** The block of the tracker's own handlers registered under a name
      (show.js:167-179): arm the stay timer then clear under `stop`, flush
      under `init`, clear under `stay` and `stop-stay`, nothing elsewhere. */
  function Core(name: string): seq<Handler>
  {
    if name == "stop" then [ArmStayTimer, ClearArray]
    else if name == "init" then [FlushOnInit]
    else if name == "stay" || name == "stop-stay" then [ClearArray]
    else []
  }

  /** The tracker's own registrations (show.js:167-179), made after the
      construction-time listeners: each goes to the end of its name's list. */
  function Wire(ev: Events): (r: Events)
    ensures forall n :: n in r <==> n in ev || BuiltinName(n)
    ensures forall n :: BuiltinName(n) ==> r[n] == Handlers(ev, n) + Core(n)
    ensures forall n :: n in ev && !BuiltinName(n) ==> r[n] == ev[n]
  {
    WireSteps(ev);
    var a := OnName(ev, "stop", Some(ArmStayTimer)).events;
    var b := OnName(a, "init", Some(FlushOnInit)).events;
    On(b, Names(NameList(["stop", "stay", "stop-stay"])), Some(ClearArray)).events
  }

  lemma BuiltinNames()
    ensures "stop" != "init" && "stop" != "stay" && "stop" != "stop-stay"
    ensures "init" != "stay" && "init" != "stop-stay" && "stay" != "stop-stay"
    ensures ValidName("stop") && !Inherited("stop")
    ensures ValidName("init") && !Inherited("init")
    ensures ValidName("stay") && !Inherited("stay")
    ensures ValidName("stop-stay") && !Inherited("stop-stay")
  {
    assert "stop-stay"[4] == '-';
  }

  /** The wiring of show.js:167-179 over four distinct acceptable names, kept
      abstract so that the proof never compares string literals. */
  lemma WireGeneric(ev: Events, stop: string, init: string, stay: string, stopStay: string)
    requires ValidName(stop) && !Inherited(stop) && ValidName(init) && !Inherited(init)
    requires ValidName(stay) && !Inherited(stay) && ValidName(stopStay) && !Inherited(stopStay)
    requires stop != init && stop != stay && stop != stopStay
    requires init != stay && init != stopStay && stay != stopStay
    ensures var a := OnName(ev, stop, Some(ArmStayTimer)).events;
      var b := OnName(a, init, Some(FlushOnInit)).events;
      var r := On(b, Names(NameList([stop, stay, stopStay])), Some(ClearArray)).events;
      && (forall n :: n in r <==> n in ev || n == stop || n == init || n == stay || n == stopStay)
      && r[stop] == Handlers(ev, stop) + [ArmStayTimer, ClearArray]
      && r[init] == Handlers(ev, init) + [FlushOnInit]
      && r[stay] == Handlers(ev, stay) + [ClearArray]
      && r[stopStay] == Handlers(ev, stopStay) + [ClearArray]
      && forall n :: n in ev && n != stop && n != init && n != stay && n != stopStay ==> r[n] == ev[n]
  {
    var a := OnName(ev, stop, Some(ArmStayTimer)).events;
    var b := OnName(a, init, Some(FlushOnInit)).events;
    WireFirst(ev, stop, init);
    var ss := [stop, stay, stopStay];
    assert NoDup(ss);
    OnEveryName(b, ss, ClearArray);
    var r := On(b, Names(NameList(ss)), Some(ClearArray)).events;
    assert forall n :: n in ss <==> n == stop || n == stay || n == stopStay;
    WireCombine(ev, b, r, stop, init, stay, stopStay);
  }

  /** Composes the registrations for `stop` and `init` with the clearing
      registration under `stop`, `stay` and `stop-stay`. */
  lemma WireCombine(ev: Events, b: Events, r: Events, stop: string, init: string, stay: string, stopStay: string)
    requires stop != init && stop != stay && stop != stopStay
    requires init != stay && init != stopStay && stay != stopStay
    requires forall n :: n in b <==> n in ev || n == stop || n == init
    requires b[stop] == Handlers(ev, stop) + [ArmStayTimer]
    requires b[init] == Handlers(ev, init) + [FlushOnInit]
    requires forall n :: n != stop && n != init ==> Handlers(b, n) == Handlers(ev, n)
    requires forall n :: n in r <==> n in b || n == stop || n == stay || n == stopStay
    requires forall n :: n == stop || n == stay || n == stopStay ==> r[n] == Handlers(b, n) + [ClearArray]
    requires forall n :: n in b && n != stop && n != stay && n != stopStay ==> r[n] == b[n]
    ensures forall n :: n in r <==> n in ev || n == stop || n == init || n == stay || n == stopStay
    ensures r[stop] == Handlers(ev, stop) + [ArmStayTimer, ClearArray]
    ensures r[init] == Handlers(ev, init) + [FlushOnInit]
    ensures r[stay] == Handlers(ev, stay) + [ClearArray]
    ensures r[stopStay] == Handlers(ev, stopStay) + [ClearArray]
    ensures forall n :: n in ev && n != stop && n != init && n != stay && n != stopStay ==> r[n] == ev[n]
  {
    assert r[stop] == Handlers(b, stop) + [ClearArray];
    assert Handlers(b, stay) == Handlers(ev, stay);
    assert Handlers(b, stopStay) == Handlers(ev, stopStay);
    forall n | n in ev && n != stop && n != init && n != stay && n != stopStay
      ensures r[n] == ev[n]
    {
      assert Handlers(b, n) == Handlers(ev, n);
    }
  }

  /** The registrations for `stop` and `init`. */
  lemma WireFirst(ev: Events, stop: string, init: string)
    requires ValidName(stop) && !Inherited(stop) && ValidName(init) && !Inherited(init)
    requires stop != init
    ensures var a := OnName(ev, stop, Some(ArmStayTimer)).events;
      var b := OnName(a, init, Some(FlushOnInit)).events;
      && (forall n :: n in b <==> n in ev || n == stop || n == init)
      && b[stop] == Handlers(ev, stop) + [ArmStayTimer]
      && b[init] == Handlers(ev, init) + [FlushOnInit]
      && forall n :: n != stop && n != init ==> Handlers(b, n) == Handlers(ev, n)
  {
    var a := OnName(ev, stop, Some(ArmStayTimer)).events;
    assert Handlers(a, init) == Handlers(ev, init);
  }

  lemma WireSteps(ev: Events)
    ensures var a := OnName(ev, "stop", Some(ArmStayTimer)).events;
      var b := OnName(a, "init", Some(FlushOnInit)).events;
      var r := On(b, Names(NameList(["stop", "stay", "stop-stay"])), Some(ClearArray)).events;
      && (forall n :: n in r <==> n in ev || BuiltinName(n))
      && r["stop"] == Handlers(ev, "stop") + [ArmStayTimer, ClearArray]
      && r["init"] == Handlers(ev, "init") + [FlushOnInit]
      && r["stay"] == Handlers(ev, "stay") + [ClearArray]
      && r["stop-stay"] == Handlers(ev, "stop-stay") + [ClearArray]
      && forall n :: n in ev && !BuiltinName(n) ==> r[n] == ev[n]
  {
    BuiltinNames();
    WireGeneric(ev, "stop", "init", "stay", "stop-stay");
  }

  /** `new Show(opt)` after selector resolution and observer set-up. A throw
      from a listener's name means the constructor throws. */
  function Create(ls: seq<(string, Option<nat>)>): (o: Outcome)
    ensures o.t.shown == [] && o.t.stayed == [] && o.t.visible == []
    ensures o.t.access == map[] && o.t.left == map[] && o.t.log == []
    ensures !o.t.isInit && !o.t.begin && !o.t.debouncing && PendingTimers(o.t) == 0
    ensures !o.threw ==> forall n :: BuiltinName(n) ==> n in o.t.events
  {
    var r := OnListeners(map[], ls);
    if r.threw then Outcome(Blank().(events := r.events), true)
    else Outcome(Blank().(events := Wire(r.events)), false)
  }

  /* ------------------------------ the machine ------------------------------ */

  datatype Input =
    | Batch(entries: seq<Entry>, now: Time)     // an IntersectionObserver callback
    | ScrollEvent                               // a scroll notification
    | DebounceDue                               // the 500 ms quiet period ended
    | StayTimerDue(timer: TimerRef, now: Time)  // a 3000 ms stay timer ended
    | ReloadCall                                // reload()
    | OnCall(names: NameArg, fn: Option<nat>)   // on(names, fn)
    | FireCall(name: Option<string>, arg: Payload) // fireEvent(name, arg)

  function Step(t: Tracker, i: Input): Outcome
  {
    match i
    case Batch(es, now) => ObserverBatch(t, es, now)
    case ScrollEvent => Scroll(t)
    case DebounceDue => DebounceElapsed(t)
    case StayTimerDue(which, now) => StayTimerElapsed(t, which, now)
    case ReloadCall => Reload(t)
    case OnCall(names, fn) => Listen(t, names, fn)
    case FireCall(name, p) => FireEvent(t, name, p)
  }
}

=== FILE: show_facts.dfy ===
/** Properties of the tracker's inputs: the exact outcome of each host
    callback in a tracker built by `Create`, the registry shape every input
    keeps, and the absence of throws from the tracker's own callbacks. */
module ShowFacts {

  import opened Base
  import opened Classify
  import opened Actions
  import opened Registry
  import opened Show
  import opened DispatchFacts

  /** What holds of every tracker `Create` builds and every input keeps: the
      registry is wired, and the exposure list has no duplicates. */
  predicate Inv(t: Tracker)
  {
    Wired(t.events) && NoDup(t.shown)
  }

  /* --------------------------- registry growth --------------------------- */

  /** `ev2` is `ev` with callers' handlers appended to some names' lists. */
  predicate Extends(ev: Events, ev2: Events)
  {
    && (forall n :: n in ev ==> n in ev2 && ev[n] <= ev2[n] && UserOnly(ev2[n][|ev[n]|..]))
    && (forall n :: n in ev2 && n !in ev ==> UserOnly(ev2[n]))
  }

  lemma ExtendsTrans(a: Events, b: Events, c: Events)
    requires Extends(a, b) && Extends(b, c)
    ensures Extends(a, c)
  {
    forall n | n in a
      ensures n in c && a[n] <= c[n] && UserOnly(c[n][|a[n]|..])
    {
      var x, y, z := a[n], b[n], c[n];
      assert x <= z;
      forall i | 0 <= i < |z[|x|..]| ensures z[|x|..][i].UserFn? {
        if |x| + i < |y| {
          assert z[|x|..][i] == y[|x|..][i];
        } else {
          assert z[|x|..][i] == z[|y|..][|x| + i - |y|];
        }
      }
    }
    forall n | n in c && n !in a ensures UserOnly(c[n]) {
      if n in b {
        var y, z := b[n], c[n];
        forall i | 0 <= i < |z| ensures z[i].UserFn? {
          if i < |y| {
            assert z[i] == y[i];
          } else {
            assert z[i] == z[|y|..][i - |y|];
          }
        }
      }
    }
  }

  /** `on` with a caller's function, or with a non-function, only appends
      callers' handlers. */
  lemma {:induction false} OnExtends(ev: Events, names: NameArg, fn: Option<nat>)
    ensures Extends(ev, On(ev, names, UserHandler(fn)).events)
    decreases names, 1
  {
    match names
    case Name(s) =>
      var r := OnName(ev, s, UserHandler(fn));
      forall n | n in ev ensures ev[n] <= r.events[n] && UserOnly(r.events[n][|ev[n]|..]) {
        if n == s && r.events != ev {
          assert r.events[n][|ev[n]|..] == [UserFn(fn.value)];
        }
      }
    case Names(items) => OnEachExtends(ev, items, fn);
  }

  lemma {:induction false} OnEachExtends(ev: Events, items: seq<NameArg>, fn: Option<nat>)
    ensures Extends(ev, OnEach(ev, items, UserHandler(fn)).events)
    decreases items, 0
  {
    if |items| == 0 {
      forall n | n in ev ensures ev[n][|ev[n]|..] == [] { }
    } else {
      var r := On(ev, items[0], UserHandler(fn));
      OnExtends(ev, items[0], fn);
      if !r.threw {
        OnEachExtends(r.events, items[1..], fn);
        ExtendsTrans(ev, r.events, OnEach(r.events, items[1..], UserHandler(fn)).events);
      }
    }
  }

  lemma {:induction false} UserPrefixExtend(hs: seq<Handler>, hs2: seq<Handler>)
    requires UserPrefix(hs) < |hs| && hs <= hs2
    ensures UserPrefix(hs2) == UserPrefix(hs)
    decreases |hs|
  {
    if hs[0].UserFn? {
      assert hs[1..] <= hs2[1..];
      UserPrefixExtend(hs[1..], hs2[1..]);
    }
  }

  /** Appending callers' handlers keeps the shape: the handlers before the
      built-in block stay the same, and the new ones run after it. */
  lemma ShapedExtend(hs: seq<Handler>, hs2: seq<Handler>, core: seq<Handler>)
    requires Shaped(hs, core) && |core| > 0
    requires hs <= hs2 && UserOnly(hs2[|hs|..])
    ensures Shaped(hs2, core)
    ensures Before(hs2) == Before(hs)
    ensures After(hs2, core) == After(hs, core) + hs2[|hs|..]
  {
    var k := UserPrefix(hs);
    assert k < |hs|;
    UserPrefixExtend(hs, hs2);
    assert hs2[..k] == hs[..k];
    assert hs2[k..k + |core|] == hs[k..k + |core|];
    assert hs2[k + |core|..] == hs[k + |core|..] + hs2[|hs|..];
    var tail := hs2[k + |core|..];
    forall i | 0 <= i < |tail| ensures tail[i].UserFn? {
      if k + |core| + i < |hs| {
        assert tail[i] == hs[k + |core|..][i];
      } else {
        assert tail[i] == hs2[|hs|..][k + |core| + i - |hs|];
      }
    }
  }

  lemma UserOnlyExtend(hs: seq<Handler>, hs2: seq<Handler>)
    requires UserOnly(hs) && hs <= hs2 && UserOnly(hs2[|hs|..])
    ensures UserOnly(hs2)
  {
    forall i | 0 <= i < |hs2| ensures hs2[i].UserFn? {
      if i < |hs| {
        assert hs2[i] == hs[i];
      } else {
        assert hs2[i] == hs2[|hs|..][i - |hs|];
      }
    }
  }

  lemma WiredExtends(ev: Events, ev2: Events)
    requires Wired(ev) && Extends(ev, ev2)
    ensures Wired(ev2)
    ensures forall n :: BuiltinName(n) ==> Before(ev2[n]) == Before(ev[n])
  {
    ShapedExtend(ev["stop"], ev2["stop"], [ArmStayTimer, ClearArray]);
    ShapedExtend(ev["init"], ev2["init"], [FlushOnInit]);
    ShapedExtend(ev["stay"], ev2["stay"], [ClearArray]);
    ShapedExtend(ev["stop-stay"], ev2["stop-stay"], [ClearArray]);
    forall n | n in ev2 && !BuiltinName(n) ensures UserOnly(ev2[n]) {
      if n in ev {
        UserOnlyExtend(ev[n], ev2[n]);
      }
    }
  }

  /** A caller's handler registered later for `stop` runs after the clearing
      handler, while the handlers registered at construction keep their place
      before it. */
  lemma LateStopListener(t: Tracker, id: nat)
    requires Inv(t)
    ensures var u := Listen(t, Name("stop"), Some(id));
      && !u.threw && Inv(u.t)
      && Before(u.t.events["stop"]) == Before(t.events["stop"])
      && After(u.t.events["stop"], Core("stop")) == After(t.events["stop"], Core("stop")) + [UserFn(id)]
  {
    BuiltinNames();
    var u := Listen(t, Name("stop"), Some(id));
    OnExtends(t.events, Name("stop"), Some(id));
    WiredExtends(t.events, u.t.events);
    var hs := t.events["stop"];
    assert u.t.events["stop"] == hs + [UserFn(id)];
    ShapedExtend(hs, hs + [UserFn(id)], [ArmStayTimer, ClearArray]);
    assert (hs + [UserFn(id)])[|hs|..] == [UserFn(id)];
  }

  /* ------------------------------ construction ------------------------------ */

  lemma {:induction false} UserPrefixOfUsers(us: seq<Handler>, core: seq<Handler>)
    requires UserOnly(us) && |core| > 0 && !core[0].UserFn?
    ensures UserPrefix(us + core) == |us|
    decreases |us|
  {
    if |us| == 0 {
      assert (us + core)[0] == core[0];
    } else {
      assert (us + core)[1..] == us[1..] + core;
      assert UserOnly(us[1..]) by {
        forall i | 0 <= i < |us[1..]| ensures us[1..][i].UserFn? {
          assert us[1..][i] == us[i + 1];
        }
      }
      UserPrefixOfUsers(us[1..], core);
    }
  }

  lemma ShapedOfUsers(us: seq<Handler>, core: seq<Handler>)
    requires UserOnly(us) && |core| > 0 && !core[0].UserFn?
    ensures Shaped(us + core, core)
    ensures Before(us + core) == us && After(us + core, core) == []
  {
    UserPrefixOfUsers(us, core);
    assert (us + core)[|us|..|us| + |core|] == core;
    assert (us + core)[..|us|] == us;
  }

  /** Construction-time listeners register only callers' handlers; the
      constructor throws exactly when one of them has a function and a name
      inherited from `Object.prototype`. */
  lemma {:induction false} OnListenersFacts(ev: Events, ls: seq<(string, Option<nat>)>)
    requires forall n :: n in ev ==> UserOnly(ev[n])
    ensures var r := OnListeners(ev, ls);
      && (forall n :: n in r.events ==> UserOnly(r.events[n]))
      && (r.threw <==> exists k :: 0 <= k < |ls| && ls[k].1.Some? && ValidName(ls[k].0) && Inherited(ls[k].0))
    decreases |ls|
  {
    if |ls| > 0 {
      var r1 := OnName(ev, ls[0].0, UserHandler(ls[0].1));
      forall n | n in r1.events ensures UserOnly(r1.events[n]) {
        if n in ev && r1.events[n] != ev[n] {
          UserOnlyExtend(ev[n], r1.events[n]);
        }
      }
      if !r1.threw {
        OnListenersFacts(r1.events, ls[1..]);
        var r := OnListeners(ev, ls);
        if r.threw {
          var k :| 0 <= k < |ls[1..]| && ls[1..][k].1.Some? && ValidName(ls[1..][k].0) && Inherited(ls[1..][k].0);
          assert ls[k + 1] == ls[1..][k];
        } else {
          forall k | 0 <= k < |ls| && ls[k].1.Some? && ValidName(ls[k].0)
            ensures !Inherited(ls[k].0)
          {
            if k > 0 {
              assert ls[k] == ls[1..][k - 1];
            }
          }
        }
      }
    }
  }

  /** Every built-in block starts with one of the tracker's own handlers. */
  lemma CoreBlock(n: string)
    requires BuiltinName(n)
    ensures |Core(n)| > 0 && !Core(n)[0].UserFn?
  {
  }

  lemma HandlersUserOnly(ev: Events, n: string)
    requires forall m :: m in ev ==> UserOnly(ev[m])
    ensures UserOnly(Handlers(ev, n))
  {
  }

  /** The tracker's own registrations on top of callers' handlers give the
      wired shape, with nothing after any built-in block. */
  lemma WireWired(ev: Events)
    requires forall n :: n in ev ==> UserOnly(ev[n])
    ensures Wired(Wire(ev))
    ensures forall n :: BuiltinName(n) ==>
      Before(Wire(ev)[n]) == Handlers(ev, n) && After(Wire(ev)[n], Core(n)) == []
  {
    var r := Wire(ev);
    forall n | BuiltinName(n)
      ensures Before(r[n]) == Handlers(ev, n) && After(r[n], Core(n)) == []
    {
      WireBlock(ev, n);
    }
    WireBlock(ev, "stop");
    WireBlock(ev, "init");
    WireBlock(ev, "stay");
    WireBlock(ev, "stop-stay");
    forall n | n in r && !BuiltinName(n) ensures UserOnly(r[n]) {
      assert n in ev;
    }
  }

  /** One built-in name after wiring: the callers' handlers, then the block. */
  lemma WireBlock(ev: Events, n: string)
    requires forall m :: m in ev ==> UserOnly(ev[m])
    requires BuiltinName(n)
    ensures n in Wire(ev) && Shaped(Wire(ev)[n], Core(n))
    ensures Before(Wire(ev)[n]) == Handlers(ev, n) && After(Wire(ev)[n], Core(n)) == []
  {
    CoreBlock(n);
    HandlersUserOnly(ev, n);
    ShapedOfUsers(Handlers(ev, n), Core(n));
  }

  /** `Create` builds a wired tracker in its initial state; for each built-in
      name, exactly the construction-time listeners run before the built-in
      handler and nothing runs after it. */
  lemma CreateWired(ls: seq<(string, Option<nat>)>)
    ensures var o := Create(ls);
      var r := OnListeners(map[], ls);
      && (o.threw <==> exists k :: 0 <= k < |ls| && ls[k].1.Some? && ValidName(ls[k].0) && Inherited(ls[k].0))
      && (!o.threw ==>
            && Inv(o.t)
            && o.t.shown == [] && o.t.stayed == [] && o.t.visible == []
            && !o.t.isInit && !o.t.begin && !o.t.debouncing && PendingTimers(o.t) == 0
            && o.t.log == []
            && forall n :: BuiltinName(n) ==>
                 Before(o.t.events[n]) == Handlers(r.events, n) && After(o.t.events[n], Core(n)) == [])
  {
    var r := OnListeners(map[], ls);
    OnListenersFacts(map[], ls);
    if !r.threw {
      WireWired(r.events);
      assert Create(ls).t == Blank().(events := Wire(r.events));
    }
  }

  /* ------------------------------ stay merging ------------------------------ */

  /** The stay timer's merge keeps the candidates already listed, in order,
      then adds exactly the visible elements that were neither candidates nor
      stamped with `leftTime`, each once, in the order they first occur in the
      visible list. */
  lemma MergeVisibleAdds(stayed: seq<Elem>, vis: seq<Elem>, left: map<Elem, Time>)
    ensures var r := MergeVisible(stayed, vis, left);
      var added := r[|stayed|..];
      && stayed <= r
      && Elems(r) == Elems(stayed) + (set x | x in vis && x !in left)
      && NoDup(added)
      && (forall x :: x in added <==> x in vis && x !in left && x !in stayed)
      && (forall i, j :: 0 <= i < j < |added| ==>
            added[i] in vis && added[j] in vis && FirstIndex(vis, added[i]) < FirstIndex(vis, added[j]))
      && (NoDup(stayed) ==> NoDup(r))
  {
    var r := MergeVisible(stayed, vis, left);
    var added := r[|stayed|..];
    MergeVisibleInOrder(stayed, vis, left);
    MergeVisibleMembers(stayed, vis, left);
    forall i, j | 0 <= i < j < |added|
      ensures added[i] != added[j]
      ensures added[i] in vis && added[j] in vis && FirstIndex(vis, added[i]) < FirstIndex(vis, added[j])
    {
      assert added[i] == r[|stayed| + i] && added[j] == r[|stayed| + j];
    }
    assert r == stayed + added;
    assert Elems(r) == Elems(stayed) + Elems(added);
    if NoDup(stayed) {
      MergeVisibleKeepsNoDup(stayed, vis, left);
    }
  }

  /** Candidates that were distinct stay distinct after the merge. */
  lemma MergeVisibleKeepsNoDup(stayed: seq<Elem>, vis: seq<Elem>, left: map<Elem, Time>)
    requires NoDup(stayed)
    ensures NoDup(MergeVisible(stayed, vis, left))
  {
    var r := MergeVisible(stayed, vis, left);
    MergeVisibleInOrder(stayed, vis, left);
    forall i, j | 0 <= i < j < |r| ensures r[i] != r[j] {
      if j < |stayed| {
        assert r[i] == stayed[i] && r[j] == stayed[j];
      } else if i < |stayed| {
        assert r[j] !in stayed && r[i] == stayed[i];
      }
    }
  }

  /** The added elements are exactly the visible ones that were neither
      candidates nor stamped. */
  lemma MergeVisibleMembers(stayed: seq<Elem>, vis: seq<Elem>, left: map<Elem, Time>)
    ensures var r := MergeVisible(stayed, vis, left);
      forall x :: x in r[|stayed|..] <==> x in vis && x !in left && x !in stayed
  {
    var r := MergeVisible(stayed, vis, left);
    var added := r[|stayed|..];
    forall x ensures x in added <==> x in vis && x !in left && x !in stayed {
      if x in added {
        var k :| 0 <= k < |added| && added[k] == x;
        assert r[|stayed| + k] == x;
      }
      if x in vis && x !in left && x !in stayed {
        MergeVisibleCovers(stayed, vis, left);
        var k :| 0 <= k < |r| && r[k] == x;
        assert forall m :: 0 <= m < |stayed| ==> r[m] == stayed[m];
        assert k >= |stayed|;
        assert added[k - |stayed|] == x;
      }
    }
  }

  /** The added elements are distinct and follow the order of their first
      occurrence in the visible list (stated on positions of the result). */
  lemma MergeVisibleInOrder(stayed: seq<Elem>, vis: seq<Elem>, left: map<Elem, Time>)
    ensures var r := MergeVisible(stayed, vis, left);
      forall i, j :: |stayed| <= i < j < |r| ==>
        r[i] != r[j] && r[i] in vis && r[j] in vis && FirstIndex(vis, r[i]) < FirstIndex(vis, r[j])
  {
    var r := MergeVisible(stayed, vis, left);
    forall i, j | |stayed| <= i < j < |r|
      ensures r[i] != r[j] && r[i] in vis && r[j] in vis && FirstIndex(vis, r[i]) < FirstIndex(vis, r[j])
    {
      MergeVisibleOrder(stayed, vis, left, i, j);
    }
  }

  /** The merge adds elements in the order of their first occurrence in the
      visible list: of two added elements, the earlier one occurs first. */
  lemma {:induction false} MergeVisibleOrder(stayed: seq<Elem>, vis: seq<Elem>, left: map<Elem, Time>, i: nat, j: nat)
    requires |stayed| <= i < j < |MergeVisible(stayed, vis, left)|
    ensures var r := MergeVisible(stayed, vis, left);
      r[i] in vis && r[j] in vis && FirstIndex(vis, r[i]) < FirstIndex(vis, r[j])
    decreases |vis|
  {
    var r := MergeVisible(stayed, vis, left);
    assert |vis| > 0;
    var d := vis[0];
    var s1 := if d !in stayed && d !in left then stayed + [d] else stayed;
    assert r == MergeVisible(s1, vis[1..], left);
    assert r[j] != d && r[j] in vis[1..] by {
      assert j >= |s1| && r[j] !in s1;
    }
    if i < |s1| {
      assert r[i] == d;
    } else {
      MergeVisibleOrder(s1, vis[1..], left, i, j);
      assert r[i] != d && r[i] in vis[1..] by {
        assert r[i] !in s1;
      }
    }
  }

  /* ------------------------------ observer batches ------------------------------ */

  /** The first batch processes every entry and only then fires `init`, which
      flushes the exposure of the whole batch through `stop` and arms the stay
      timer; the batch marks the tracker initialised. */
  lemma FirstBatch(t: Tracker, es: seq<Entry>, now: Time)
    requires Inv(t) && !t.isInit
    ensures var u := ApplyEntries(t, es, now);
      var hi := t.events["init"];
      var hs := t.events["stop"];
      var o := ObserverBatch(t, es, now);
      && !o.threw
      && o.t == Emptied(ArmTimer(u), ShowList).(isInit := true, log := t.log
           + CallsOf(Before(hi), "init", SeenNothing)
           + CallsOf(Before(hs), "stop", SeenElems(u.shown))
           + CallsOf(After(hs, [ArmStayTimer, ClearArray]), "stop", SeenElems([]))
           + CallsOf(After(hi, [FlushOnInit]), "init", SeenNothing))
  {
    var u := ApplyEntries(t, es, now);
    FireInit(u, StackDepth);
  }

  /** Once initialised, a batch only updates the three lists and the
      timestamps: no handler runs, and nothing else changes. */
  lemma LaterBatch(t: Tracker, es: seq<Entry>, now: Time)
    requires t.isInit
    ensures var o := ObserverBatch(t, es, now);
      && !o.threw && o.t.isInit
      && o.t.log == t.log && o.t.events == t.events
      && o.t.begin == t.begin && o.t.debouncing == t.debouncing
      && o.t.timerArmed == t.timerArmed && o.t.orphanTimers == t.orphanTimers
  {
  }

  /** `isInit` never goes back to false, so `init` fires from a batch once. */
  lemma InitStays(t: Tracker, i: Input)
    requires t.isInit
    ensures Step(t, i).t.isInit
  {
  }

  /** The elements a batch reports as entering the visible area. */
  function Entered(es: seq<Entry>): set<Elem>
  {
    set i | 0 <= i < |es| && es[i].ratio > Threshold :: es[i].target
  }

  /** Over a batch, the exposure list keeps what it held, in order, and gains
      exactly the elements that entered, each once. */
  lemma {:induction false} BatchExposure(t: Tracker, es: seq<Entry>, now: Time)
    ensures var u := ApplyEntries(t, es, now);
      && t.shown <= u.shown
      && Elems(u.shown) == Elems(t.shown) + Entered(es)
      && (NoDup(t.shown) ==> NoDup(u.shown))
    decreases |es|
  {
    if |es| > 0 {
      var t1 := ApplyEntry(t, es[0], now);
      BatchExposure(t1, es[1..], now);
      EnteredCons(es);
      assert Elems(t1.shown) == Elems(t.shown)
        + (if es[0].ratio > Threshold then {es[0].target} else {});
    }
  }

  lemma EnteredCons(es: seq<Entry>)
    requires |es| > 0
    ensures Entered(es) == (if es[0].ratio > Threshold then {es[0].target} else {}) + Entered(es[1..])
  {
    var first: set<Elem> := if es[0].ratio > Threshold then {es[0].target} else {};
    forall x | x in Entered(es) ensures x in first + Entered(es[1..]) {
      var i :| 0 <= i < |es| && es[i].ratio > Threshold && es[i].target == x;
      if i > 0 {
        assert es[1..][i - 1] == es[i];
      }
    }
    forall x | x in Entered(es[1..]) ensures x in Entered(es) {
      var i :| 0 <= i < |es[1..]| && es[1..][i].ratio > Threshold && es[1..][i].target == x;
      assert es[i + 1] == es[1..][i];
    }
  }

  /** The visible list follows each entry: enter appends the element, exit
      runs the splice loop over it. */
  lemma VisibleDomsFollowEntry(t: Tracker, e: Entry, now: Time)
    ensures e.ratio > Threshold ==>
      ApplyEntry(t, e, now).visible == t.visible + [e.target]
    ensures e.ratio <= Threshold ==>
      ApplyEntry(t, e, now).visible == SpliceOut(t.visible, e.target)
    ensures e.ratio <= Threshold ==> ApplyEntry(t, e, now).shown == t.shown
  {
  }

  /** The array `getVisibleDoms` returns is the tracker's own: a caller who
      fires a clearing name with it in a wired tracker hands the current
      contents to the handlers registered before the built-in block, and
      afterwards the tracker's visible list, read through the same handle,
      is empty. */
  lemma VisibleDomsAlias(t: Tracker, name: string)
    requires Wired(t.events)
    requires name == "stop" || name == "stay" || name == "stop-stay"
    ensures var a := GetVisibleDoms(t);
      var o := FireEvent(t, Some(name), Arr(a));
      var hs := t.events[name];
      && !o.threw
      && Contents(o.t, a) == [] && o.t.visible == []
      && o.t.log == t.log + CallsOf(Before(hs), name, SeenElems(t.visible))
                          + CallsOf(After(hs, Core(name)), name, SeenElems([]))
  {
    var a := GetVisibleDoms(t);
    FireFlush(t, name, a, StackDepth);
  }

  /* -------------------------------- reload -------------------------------- */

  /** `reload` empties the visible list and fires `init` whether or not it
      fired before: the exposure list is flushed through `stop` and the stay
      timer is armed. */
  lemma ReloadFiresInit(t: Tracker)
    requires Inv(t)
    ensures var hi := t.events["init"];
      var hs := t.events["stop"];
      var o := Reload(t);
      && !o.threw
      && o.t == Emptied(ArmTimer(t.(visible := [])), ShowList).(log := t.log
           + CallsOf(Before(hi), "init", SeenNothing)
           + CallsOf(Before(hs), "stop", SeenElems(t.shown))
           + CallsOf(After(hs, [ArmStayTimer, ClearArray]), "stop", SeenElems([]))
           + CallsOf(After(hi, [FlushOnInit]), "init", SeenNothing))
  {
    FireInit(t.(visible := []), StackDepth);
  }

  /* -------------------------------- scrolling -------------------------------- */

  /** The first scroll of a burst fires `begin` to its handlers, raises the
      flag, cancels the stay timer the handle refers to and schedules the
      debounced stop; nothing else changes. */
  lemma ScrollBegins(t: Tracker)
    requires Inv(t) && !t.begin
    ensures var o := Scroll(t);
      && !o.threw
      && o.t == t.(begin := true, timerArmed := false, debouncing := true,
                   log := t.log + CallsOf(Handlers(t.events, "begin"), "begin", SeenNothing))
  {
    assert !BuiltinName("begin") && !Inherited("begin");
    FireUsers(t, "begin", NoArg, StackDepth);
  }

  /** Further scrolls of the burst fire nothing; they only reschedule the
      debounced stop. */
  lemma ScrollContinues(t: Tracker)
    requires t.begin
    ensures Scroll(t) == Outcome(t.(debouncing := true), false)
  {
  }

  /** After `begin`, the stay timer it cancelled can no longer fire. */
  lemma BeginCancelsStayTimer(t: Tracker, now: Time)
    requires Inv(t) && !t.begin
    ensures var o := Scroll(t);
      StayTimerElapsed(o.t, Latest, now) == Outcome(o.t, false)
  {
    ScrollBegins(t);
  }

  /** The debounced stop flushes the exposure list through `stop` (arming the
      stay timer) and the stay candidates through `stop-stay`, then ends the
      burst. */
  lemma DebouncedStop(t: Tracker)
    requires Inv(t) && t.debouncing
    ensures var hs := t.events["stop"];
      var hss := t.events["stop-stay"];
      var o := DebounceElapsed(t);
      && !o.threw
      && o.t == ArmTimer(t).(shown := [], stayed := [], begin := false, debouncing := false,
                             log := t.log
           + CallsOf(Before(hs), "stop", SeenElems(t.shown))
           + CallsOf(After(hs, [ArmStayTimer, ClearArray]), "stop", SeenElems([]))
           + CallsOf(Before(hss), "stop-stay", SeenElems(t.stayed))
           + CallsOf(After(hss, [ClearArray]), "stop-stay", SeenElems([])))
  {
    BuiltinNames();
    var t0 := t.(debouncing := false);
    FireFlush(t0, "stop", ShowList, StackDepth);
    var t1 := Fire(t0, "stop", Arr(ShowList), StackDepth).t;
    FireFlush(t1, "stop-stay", StayList, StackDepth);
    assert Core("stop") == [ArmStayTimer, ClearArray];
    assert Core("stop-stay") == [ClearArray];
  }

  /* -------------------------------- stay timer -------------------------------- */

  /** The stay timer body: the merged candidates go out with `stay`, the
      visible list with `stop-stay`, both arrays end empty, and every merged
      candidate is stamped with `leftTime = now`. */
  lemma StayTimerFlush(t: Tracker, now: Time)
    requires Inv(t)
    ensures var merged := MergeVisible(t.stayed, t.visible, t.left);
      var hy := t.events["stay"];
      var hss := t.events["stop-stay"];
      var o := StayTimerFires(t, now);
      && !o.threw
      && o.t == t.(stayed := [], visible := [], left := StampLeft(t.left, merged, now),
                   log := t.log
           + CallsOf(Before(hy), "stay", SeenElems(merged))
           + CallsOf(After(hy, [ClearArray]), "stay", SeenElems([]))
           + CallsOf(Before(hss), "stop-stay", SeenElems(t.visible))
           + CallsOf(After(hss, [ClearArray]), "stop-stay", SeenElems([])))
  {
    BuiltinNames();
    var merged := MergeVisible(t.stayed, t.visible, t.left);
    var u := t.(stayed := merged, left := StampLeft(t.left, merged, now));
    FireFlush(u, "stay", StayList, StackDepth);
    var u1 := Fire(u, "stay", Arr(StayList), StackDepth).t;
    FireFlush(u1, "stop-stay", VisibleList, StackDepth);
    assert Core("stay") == [ClearArray];
    assert Core("stop-stay") == [ClearArray];
  }

  /** The log the debounced stop leaves: `stop` with the exposure list, then
      `stop-stay` with the stay candidates. */
  lemma DebouncedLog(t: Tracker)
    requires Inv(t) && t.debouncing
    ensures var hs := t.events["stop"];
      var hss := t.events["stop-stay"];
      var o1 := DebounceElapsed(t);
      && !o1.threw && o1.t.timerArmed
      && o1.t.events == t.events && o1.t.visible == t.visible
      && o1.t.log == t.log
           + CallsOf(Before(hs), "stop", SeenElems(t.shown))
           + CallsOf(After(hs, [ArmStayTimer, ClearArray]), "stop", SeenElems([]))
           + CallsOf(Before(hss), "stop-stay", SeenElems(t.stayed))
           + CallsOf(After(hss, [ClearArray]), "stop-stay", SeenElems([]))
  {
    DebouncedStop(t);
  }

  /** The log the armed stay timer leaves: `stay` with the merged
      candidates, then `stop-stay` with the visible list. */
  lemma StayTimerLog(t: Tracker, now: Time)
    requires Inv(t) && t.timerArmed
    ensures var hy := t.events["stay"];
      var hss := t.events["stop-stay"];
      var merged := MergeVisible(t.stayed, t.visible, t.left);
      var o2 := StayTimerElapsed(t, Latest, now);
      && !o2.threw
      && o2.t.log == t.log
           + CallsOf(Before(hy), "stay", SeenElems(merged))
           + CallsOf(After(hy, [ClearArray]), "stay", SeenElems([]))
           + CallsOf(Before(hss), "stop-stay", SeenElems(t.visible))
           + CallsOf(After(hss, [ClearArray]), "stop-stay", SeenElems([]))
  {
    var u := t.(timerArmed := false);
    assert Inv(u);
    StayTimerFlush(u, now);
  }

  /** The first `stop-stay` wave: when scrolling settles, a handler
      registered before the built-in block receives the stay candidates, and
      the visible list is left as it was, with the stay timer armed. */
  lemma FirstWave(t: Tracker, f: nat)
    requires Inv(t) && t.debouncing
    requires UserFn(f) in Before(t.events["stop-stay"])
    ensures var o1 := DebounceElapsed(t);
      && !o1.threw && Inv(o1.t) && o1.t.timerArmed
      && o1.t.events == t.events && o1.t.visible == t.visible
      && Call(f, "stop-stay", SeenElems(t.stayed)) in o1.t.log[|t.log|..]
  {
    var hs := t.events["stop"];
    var hss := t.events["stop-stay"];
    DebouncedLog(t);
    DebounceKeepsInv(t);
    var w0 := CallsOf(Before(hs), "stop", SeenElems(t.shown));
    var w1 := CallsOf(After(hs, [ArmStayTimer, ClearArray]), "stop", SeenElems([]));
    var w2 := CallsOf(Before(hss), "stop-stay", SeenElems(t.stayed));
    var w3 := CallsOf(After(hss, [ClearArray]), "stop-stay", SeenElems([]));
    CallsOfHas(Before(hss), "stop-stay", SeenElems(t.stayed), f);
    InTail(t.log, w0, w1, w2, w3, Call(f, "stop-stay", SeenElems(t.stayed)));
  }

  /** A call logged in the middle part of a dispatch lies after the earlier log. */
  lemma InTail(pre: seq<Call>, w0: seq<Call>, w1: seq<Call>, w2: seq<Call>, w3: seq<Call>, c: Call)
    requires c in w2
    ensures c in (pre + w0 + w1 + w2 + w3)[|pre|..]
  {
    assert (pre + w0 + w1 + w2 + w3)[|pre|..] == w0 + w1 + w2 + w3;
  }

  /** The second `stop-stay` wave: when the armed stay timer elapses, a
      handler registered before the built-in block receives the whole
      visible list, with nothing removed for having been reported before. */
  lemma SecondWave(t: Tracker, now: Time, f: nat)
    requires Inv(t) && t.timerArmed
    requires UserFn(f) in Before(t.events["stop-stay"])
    ensures var o2 := StayTimerElapsed(t, Latest, now);
      && !o2.threw
      && Call(f, "stop-stay", SeenElems(t.visible)) in o2.t.log[|t.log|..]
  {
    var hy := t.events["stay"];
    var hss := t.events["stop-stay"];
    var merged := MergeVisible(t.stayed, t.visible, t.left);
    StayTimerLog(t, now);
    var w0 := CallsOf(Before(hy), "stay", SeenElems(merged));
    var w1 := CallsOf(After(hy, [ClearArray]), "stay", SeenElems([]));
    var w2 := CallsOf(Before(hss), "stop-stay", SeenElems(t.visible));
    var w3 := CallsOf(After(hss, [ClearArray]), "stop-stay", SeenElems([]));
    CallsOfHas(Before(hss), "stop-stay", SeenElems(t.visible), f);
    InTail(t.log, w0, w1, w2, w3, Call(f, "stop-stay", SeenElems(t.visible)));
  }

  /** The two `stop-stay` waves are not disjoint: an element that is both a
      stay candidate and visible when scrolling settles is reported by the
      first wave and again by the second, when the timer `stop` armed
      elapses. */
  lemma StopStayWavesOverlap(t: Tracker, now: Time, f: nat)
    requires Inv(t) && t.debouncing
    requires UserFn(f) in Before(t.events["stop-stay"])
    ensures var o1 := DebounceElapsed(t);
      var o2 := StayTimerElapsed(o1.t, Latest, now);
      && !o1.threw && !o2.threw
      && Call(f, "stop-stay", SeenElems(t.stayed)) in o1.t.log[|t.log|..]
      && Call(f, "stop-stay", SeenElems(t.visible)) in o2.t.log[|o1.t.log|..]
  {
    FirstWave(t, f);
    SecondWave(DebounceElapsed(t).t, now, f);
  }

  /** A candidate the timer stamped cannot be counted again by a later exit
      unless it enters first. */
  lemma StampedExitAddsNothing(t: Tracker, now: Time, e: Elem, later: Time)
    requires Inv(t)
    requires e in MergeVisible(t.stayed, t.visible, t.left)
    ensures var u := StayTimerFires(t, now).t;
      var s := StayState(u.stayed, u.access, u.left);
      StayAction(s, e, Exit, later) == s
  {
    StayTimerFlush(t, now);
  }

  /* ------------------------------ whole machine ------------------------------ */

  /** The host's own callbacks (observer, scroll, debounce, timers, reload). */
  predicate Internal(i: Input)
  {
    !i.OnCall? && !i.FireCall?
  }

  /** Every input keeps the invariant, including a throwing `on` or
      `fireEvent` from a caller. */
  lemma StepKeepsInv(t: Tracker, i: Input)
    requires Inv(t)
    ensures Inv(Step(t, i).t)
  {
    match i
    case Batch(es, now) => BatchKeepsInv(t, es, now);
    case ScrollEvent => ScrollKeepsInv(t);
    case DebounceDue => DebounceKeepsInv(t);
    case StayTimerDue(which, now) =>
      if which == Latest && t.timerArmed {
        StayTimerKeepsInv(t.(timerArmed := false), now);
      } else if which == Orphan && t.orphanTimers > 0 {
        StayTimerKeepsInv(t.(orphanTimers := t.orphanTimers - 1), now);
      }
    case ReloadCall =>
      assert DispatchFrame(t.(visible := []), Reload(t).t);
    case OnCall(names, fn) =>
      OnExtends(t.events, names, fn);
      WiredExtends(t.events, Listen(t, names, fn).t.events);
    case FireCall(name, p) =>
      assert DispatchFrame(t, FireEvent(t, name, p).t);
  }

  lemma BatchKeepsInv(t: Tracker, es: seq<Entry>, now: Time)
    requires Inv(t)
    ensures Inv(ObserverBatch(t, es, now).t)
  {
    var u := ApplyEntries(t, es, now);
    assert Inv(u);
    if !u.isInit {
      assert DispatchFrame(u, Fire(u, "init", NoArg, StackDepth).t);
    }
  }

  lemma ScrollKeepsInv(t: Tracker)
    requires Inv(t)
    ensures Inv(Scroll(t).t)
  {
    if !t.begin {
      assert DispatchFrame(t, Fire(t, "begin", NoArg, StackDepth).t);
    }
  }

  lemma DebounceKeepsInv(t: Tracker)
    requires Inv(t)
    ensures Inv(DebounceElapsed(t).t)
  {
    if t.debouncing {
      var o1 := Fire(t.(debouncing := false), "stop", Arr(ShowList), StackDepth);
      assert Inv(o1.t);
      assert DispatchFrame(o1.t, Fire(o1.t, "stop-stay", Arr(StayList), StackDepth).t);
    }
  }

  lemma StayTimerKeepsInv(t: Tracker, now: Time)
    requires Inv(t)
    ensures Inv(StayTimerFires(t, now).t)
  {
    var merged := MergeVisible(t.stayed, t.visible, t.left);
    var u := t.(stayed := merged, left := StampLeft(t.left, merged, now));
    var o := Fire(u, "stay", Arr(StayList), StackDepth);
    assert Inv(o.t);
    if !o.threw {
      assert DispatchFrame(o.t, Fire(o.t, "stop-stay", Arr(VisibleList), StackDepth).t);
    }
  }

  /** The tracker's own callbacks never throw in a tracker that keeps the
      invariant; only a caller's `on` or `fireEvent` can. */
  lemma InternalNeverThrows(t: Tracker, i: Input)
    requires Inv(t) && Internal(i)
    ensures !Step(t, i).threw
  {
    match i
    case Batch(es, now) =>
      if !t.isInit {
        FirstBatch(t, es, now);
      }
    case ScrollEvent =>
      if !t.begin {
        ScrollBegins(t);
      }
    case DebounceDue =>
      if t.debouncing {
        DebouncedStop(t);
      }
    case StayTimerDue(which, now) =>
      if which == Latest && t.timerArmed {
        StayTimerFlush(t.(timerArmed := false), now);
      } else if which == Orphan && t.orphanTimers > 0 {
        StayTimerFlush(t.(orphanTimers := t.orphanTimers - 1), now);
      }
    case ReloadCall =>
      ReloadFiresInit(t);
  }
}
